=== FILE: README.md ===
# pantree-api: passwordless OTP login, sync-state fingerprint, user handlers

A Dafny model of the three pieces of pure logic inside the pantree-api Go
service. Everything else in the service is HTTP and database plumbing.

- **OTP login** (`auth.go`). `requestOtp` draws a six-digit code. It returns
  the lower-case hex of an HMAC-SHA1 digest over *e-mail ‖ code ‖ time byte*.
  The time byte is taken at the time step four minutes ahead. The
  `authenticator` callback decodes the claimed hash. It recomputes the digest
  for the current one-minute step and the next four, and accepts on the first
  match. It then finds or creates the user and returns `JwtUser{Id}`.
  `payloadFunc` and `authorizator` turn that value into token claims
  (modules `Otp`, `Auth`, `Hex`).
- **Sync-state fingerprint** (`sync.go`). `_computeSyncStateHash` serialises
  each item, in list order, as its ID bytes followed by its last-modified
  epoch milliseconds (eight big-endian bytes). It hashes that buffer with
  32-bit FNV-1a (modules `Sync`, `Fnv`, `Bytes`).
- **Users** (`users.go`). Covered are: create-if-absent user resolution, the
  partial-update parameters of `handleUpdateMe`, and the picture upload of
  `uploadUserImage`, with its S3 key and its delete-before-replace guard
  (module `Users`).

Modelling choices:
- Go strings are byte sequences (`Bytes.Str`).
- `int64` arithmetic wraps explicitly (`Bytes.Wrap64`).
- Go's truncating `%` is written out (`Otp.RemMinute`).
- HMAC-SHA1 is the `mac` field of `Otp.OtpConfig`: any function from (key,
  message) to 20 bytes.
- The secret is the `secret` field of the same config, read once at start-up.
- The clock readings of the login loop, one per iteration, are the `clock`
  parameter.
- The random draws of `rand.Intn` are the `picks` parameter.
- The e-mail validator of gin's binding is the `isEmail` parameter.
- The users table is a map keyed by e-mail, with two fault flags.
- S3 and the database are answers supplied by `Users.UploadEnv`.

Lemmas that rule a login out need a hypothesis, `Otp.SeparatesTimes`: for one
e-mail and code, the time encoding can be recovered from the digest, that is,
the keyed hash gives different digests for different time encodings. This concerns at most 2^64 messages, so it is consistent. Full
injectivity of a 20-byte hash would be false.

Behaviour of the code worth noting:
- A malformed code or hash is not a distinct error. A body that does not bind
  gives `ErrMissingLoginValues`. A hash that is not hex gives
  `ErrFailedAuthentication`. The code's length is checked, but not that it is
  all digits (auth.go:30).
- Only the low byte of the time step is hashed (auth.go:176), not the full
  step. See Findings.
- The fingerprint follows the list order. Nothing is sorted (sync.go:29).
- There is no delta reconciler (`_mergeSyncStates`) in the code. sync_test.go
  calls one, but no source defines it.
- `authorizator` is never installed: `initParams` (auth.go:114-127) does not
  set `Authorizator`. gin-jwt's default authorizer therefore runs.

## Model

| member | source | states |
|---|---|---|
| Otp.TimeStep | auth.go:165-169 | The step is `(k + offset)·60000` for the truncated step index k of the clock when no int64 overflow occurs; its low byte is that of `(k + offset)·60000` in every case |
| Otp.StepBracketsNow | auth.go:162-169 | The current step is a multiple of 60000; for a non-negative clock it is the start of the minute the clock is in, for a negative clock it is truncated toward zero |
| Otp.TimeBytes | auth.go:176 | As written only the low byte of the step is mixed in; the corrected encoding is the eight big-endian bytes, which decode back to the step |
| Otp.OtpMessage | auth.go:174-176 | The hashed message is the e-mail, then the code, then the time bytes, each recoverable at its position |
| Otp.OtpMessageInjective | auth.go:174-176 | With the code length fixed, equal messages come from equal (e-mail, code, time bytes) |
| Otp.HashOtp | auth.go:171-179 | The digest is the keyed hash, under the secret, of exactly the (e-mail, code, time bytes) message |
| Otp.StepByte | auth.go:162 | Because 60000 ≡ 96 (mod 256), the low byte of step index k is the table entry for k mod 8 |
| Otp.StepByteAlias | auth.go:176 | Two step indices give the same time byte if and only if they are congruent modulo 8 |
| Otp.HashOtpAliasing | auth.go:176 | As written, digests for step indices that agree modulo 8 are identical |
| Otp.IssuedHash | auth.go:197-199 | The issued hash is 40 hex characters that decode to the digest at offset EXPR_OFF-1 = 4 |
| Otp.FirstMatch | auth.go:54-62 | A match the loop reports is an offset in [0,5) whose digest equals the claimed hash; a claimed hash not 20 bytes long never matches |
| Otp.MatchAccepts | auth.go:54-62 | A matching digest at any offset o in [0,5), with the clock fixed, makes the loop accept |
| Otp.FirstMatchIsFirst | auth.go:54-62 | The reported offset is the least matching one, and there is no match exactly when every offset's digest differs from the claimed hash |
| Otp.LowByteAliasAccepts | auth.go:54-62 | As written, a hash issued at step index k is accepted at any step index k' with (k'−k) mod 8 in 0..4 |
| Otp.LowByteMatchAligns | auth.go:54-62 | If the keyed hash separates time bytes, a match at offset o forces k'+o ≡ k+4 (mod 8) |
| Otp.AcceptedOffset | auth.go:54-62 | An accepted login has an offset o in [0,5) whose digest at step k'+o equals the issued digest |
| Otp.LowByteAcceptedResidue | auth.go:54-62 | If the keyed hash separates time bytes, an accepted login has (k'−k) mod 8 in 0..4 |
| Otp.LowByteWindow | auth.go:54-62 | If the keyed hash separates time bytes, acceptance holds exactly when (k'−k) mod 8 is in 0..4 |
| Otp.AcceptedWithinFiveSteps | auth.go:54-62 | A login in the issuing step or one of the next four steps accepts the issued hash |
| Otp.LowByteAcceptsEightStepsLater | auth.go:176 | As written, with no assumption on the keyed hash, a hash issued at step index k is accepted again at step index k+8, eight minutes after issue |
| Otp.LowByteRejectsFiveToSevenStepsLater | auth.go:54-62 | As written, if the keyed hash separates time bytes, a login five to seven steps after issue is rejected |
| Otp.FullWidthWindow | auth.go:171-179 | With the full step hashed, acceptance holds exactly when k ≤ k' ≤ k+4 |
| Otp.GenerateRandomString | auth.go:140-155 | The result has the requested length, and each character is the charset entry at the drawn index, so every character is in the charset |
| Otp.GenerateOtp | auth.go:157-160 | The code has exactly six characters, each a decimal digit |
| Hex.Encode | auth.go:181-183 | The encoding is twice as long as the digest and uses only lower-case hex digits |
| Hex.Decode | auth.go:49-52 | Decoding succeeds if and only if the input has even length and is all hex digits; the output is half as long; the error names a non-hex byte of the input, or is the length error for an odd-length hex input |
| Hex.DecodeEncode | auth.go:181-183 | Decoding the hex of a digest gives back the digest |
| Hex.EncodeDecode | auth.go:49 | Re-encoding accepted input gives the input with upper-case digits folded to lower case |
| Hex.EncodeInjective | auth.go:181-183 | Distinct digests have distinct hex strings |
| Auth.Authenticate | auth.go:40-78 | A body that does not bind fails with ErrMissingLoginValues. Non-hex input, a wrong-length hash, no match or a failed user resolution fail with ErrFailedAuthentication and leave the store unchanged. Success holds exactly when the body binds, the window matches and the user resolves, and it returns JwtUser with the resolved user's ID string |
| Auth.PayloadFunc | auth.go:101-110 | A JwtUser becomes exactly the claim "id" ↦ its ID; any other value becomes no claims |
| Auth.Authorizator | auth.go:81-90 | The authorizator accepts exactly the payloads whose claims carry an "id" |
| Auth.LoginClaims | auth.go:69-77 | A successful login's claims are exactly "id" ↦ the resolved user's UUID string; the `authorizator` function, which is never installed, would accept the login's payload |
| Auth.ClaimsIdentifyUser | auth.go:75-77 | Equal claims from two successful logins mean the same user ID was resolved |
| Auth.RequestOtp | auth.go:189-212 | A body without an acceptable e-mail gets a 400. Otherwise the reply is six digits plus the hex hash for offset 4, and the hash decodes to that digest |
| Auth.LoginWindow | auth.go:40-78 | As written, end to end: the issued hash and its code log in at clock loginAt exactly when (k'−k) mod 8 is in 0..4 and the user resolves |
| Auth.LoginWithinFiveMinutes | auth.go:197-202 | Within the promised five minutes (the issuing step and the next four), the login succeeds whenever the user resolves |
| Auth.LoginWindowFullWidth | auth.go:171-179 | Corrected, end to end: the login succeeds exactly in the issuing step and the next four, provided the user resolves |
| Bytes.Wrap64 | auth.go:168 | The wrapped value equals the input when it fits in int64, and differs from it by a multiple of 2^64 otherwise |
| Bytes.LowByteCongruent | auth.go:176 | Values that differ by a multiple of 2^64 have the same `byte(...)` conversion |
| Bytes.Int64BytesRoundTrip | sync.go:35 | Decoding the eight big-endian bytes of an int64 gives back the same value |
| Bytes.Int64BytesInjective | sync.go:35 | Distinct millisecond timestamps have distinct encodings |
| Fnv.FoldAppend | sync.go:41-44 | FNV-1a is a left fold: hashing xs ++ ys continues from the state after xs |
| Sync.ComputeSyncStateHash | sync.go:24-45 | The method never returns an error. Its hash is FNV-1a of the item-by-item serialisation. An empty list hashes to the offset basis 2166136261 |
| Sync.WriteItems | sync.go:29-39 | The loop's buffer is the serialisation of the whole list, item by item in list order, and is empty for an empty list |
| Fnv.Hash32 | sync.go:41-44 | The byte-by-byte hashing loop computes FNV-1a of the whole buffer, and the offset basis for an empty buffer |
| Sync.SerialiseLength | sync.go:29-39 | With IDs of width w, the buffer holds n·(w+8) bytes |
| Sync.StateHashSnoc | sync.go:41-44 | The fingerprint of xs ++ [x] continues the FNV-1a fold from the fingerprint of xs over x's ID and timestamp bytes |
| Sync.StateHashOnlyKeys | sync.go:29-39 | Lists that agree item by item on ID and last-modified time have the same fingerprint, whatever their other columns hold |
| Sync.ParseSerialise | sync.go:29-39 | The buffer can be parsed back into the exact (ID, millis) sequence, in list order |
| Sync.SerialiseInjective | sync.go:29-39 | Equal buffers come from equal (ID, millis) sequences |
| Sync.SerialiseOrderSensitive | sync.go:29 | Swapping two items with different keys changes the hashed bytes, so the fingerprint depends on the list order |
| Sync.SwapChangesStateHash | sync.go:29-44 | The 32-bit fingerprint itself depends on the order: two items with empty IDs and times 0 and 1 ms hash to 0x68691772 in one order and 0x48205812 in the other, whatever their other columns |
| Users.CreateOrGetNewUser | users.go:15-42 | A successful lookup returns that user and creates nothing. A failed lookup creates the user with email = name = the e-mail, prefMeasure "metric" and the new ID, and adds it to the store. If creation also fails, the error is returned and the store is unchanged |
| Users.CreateOrGetIdempotent | users.go:15-42 | Resolving the same e-mail again after a success returns the same user and leaves the store as it was |
| Users.GetUserByEmail | users.go:16-21 | The lookup succeeds exactly when the store is reachable and holds the e-mail, and it returns the stored user |
| Users.CreateUser | users.go:27-31 | Creation either fails and leaves the store unchanged, or adds the user built from the parameters |
| Users.UpdateParamsFor | users.go:152-175 | The ID is always the caller's. Each of email, name and prefMeasure is Valid with the request string iff that request field is non-empty, and NULL otherwise. The profile picture stays NULL |
| Users.UpdateParamsRoundTrip | users.go:152-175 | The request can be read back from the parameters, so no field is lost or invented |
| Users.UuidString | users.go:75 | The string form is 36 characters: lower-case hex, with dashes at positions 8, 13, 18 and 23 |
| Users.UuidStringInjective | users.go:75 | Distinct UUIDs have distinct strings |
| Users.PathExt | users.go:76 | The extension is the suffix that starts at the last '.' with no '/' after it, or "" when the final path element has no '.' |
| Users.ImageKey | users.go:73-77 | The key is "users/", then the 36-character UUID string, then the file's extension |
| Users.ImageKeyIdentifiesUser | users.go:59-77 | Two users never share a picture key, whatever their file names |
| Users.UploadUserImageAsWritten | users.go:44-97 | As written: a failed form read answers 400 and then panics at the deferred `file.Close()` of the nil file, before any delete or write; with an image the handler behaves exactly as the corrected one |
| Users.MissingImagePanics | users.go:46-50 | As written, a request without an image gets the corrected handler's 400 answer followed by a panic, and deletes and writes nothing |
| Users.UploadUserImage | users.go:44-97 | With the missing return added: a missing image yields only the 400 answer, and a bad token only the 401. The old picture is deleted first, exactly when the user has one; a failed delete ends the request with nothing else done. Otherwise the key "users/" + UUID + extension is saved. A failed save ends the request before any upload. A successful save is followed by the upload under that key and the file's content type, and the last effect is the key reply, or a 500 when the upload fails. Every upload follows the database update that stores its key. The only object ever deleted is the stored picture, as the first effect, and the handler answers at most once, as its last effect. The handler never panics |
| Users.UploadRestProgress | users.go:52-97 | Once the image is received: 401 for a bad token; a failed delete is the only effect; otherwise the key is saved, a failed save stops before the upload, and a successful one uploads and ends with the key reply or a 500 |
| Users.UploadRestFramed | users.go:52-97 | Once the image is received, nothing else happens: only the stored picture is deleted, and only as the first effect; no answer is followed by another effect |

## Left out

- HMAC-SHA1 (RFC 2104 over FIPS 180-4 SHA-1) is not modelled. The keyed hash is an arbitrary 20-byte function. Rejection results assume `Otp.SeparatesTimes` instead of deriving it.
- JWT issuing, refresh and signing (gin-jwt, RFC 7519) are library behaviour. This covers the one-hour `Timeout`/`MaxRefresh`, the hard-coded signing key, the token lookup, `unauthorized`, `handleNoRoute`, `handlerMiddleware` and `registerAuth`.
- Users.UploadUserImageAsWritten: a failed form read is one case, a nil file with no header. On older `net/http` versions, a part spooled to a temporary file that then cannot be opened comes back as a non-nil header and an unusable file; the handler would then continue past users.go:50. That path is not modelled.
- `getUserId` and `getPgtypeUuid` are left out. Token claims and UUID parsing belong to uuid/gin-jwt. In the upload model the caller's ID is an input.
- `rand.Seed`/`rand.Intn`, `time.Now`, `os.Getenv("SECRET")`, logging, and `sendEmail` with `cfg.Server.SendMail` are I/O. They become the `picks`, `clock` and `secret` inputs. `Auth.RequestOtp` returns the code that would be mailed.
- Auth.Binds: the validator's `len=6` counts runes, but the model counts bytes. The two agree for the ASCII codes `generateOtp` produces. The `email` rule is the `isEmail` parameter.
- Otp.GenerateRandomString: the length is a `nat`. A negative Go length, which yields "", is not modelled.
- Otp.LowByteWindow: the window theorems fix the clock for the whole loop. A clock that crosses a minute boundary mid-loop is covered only by the general contracts of `Otp.FirstMatch` and `Otp.FirstMatchIsFirst`.
- Otp.FullWidthWindow: this holds for clocks in [0, 2^62), where no step arithmetic wraps.
- Auth.LoginWindowFullWidth: like `Otp.FullWidthWindow`, it is proved only for issue and login clocks in [0, 2^62), where no step arithmetic wraps.
- Sync.SerialiseOrderSensitive: for every swap, order sensitivity is proved for the hashed bytes, not for the 32-bit hash, since FNV-1a can collide. `Sync.SwapChangesStateHash` exhibits one swap that changes the hash itself.
- The sync handlers `sync`, `_pullDbSyncState` and `syncStateHash` are left out. They are database upserts and a "since" query whose SQL is not shown.
- The delta reconciler `_mergeSyncStates`, which sync_test.go exercises, has no implementation in the source.
- `db.Useritem` is not shown. The item ID is an opaque byte string of fixed width, and the other columns are an opaque map.
- The users table does not follow the unshown SQL. Whether `CreateUser` rejects an existing e-mail, and how `GetUser` picks a row, are covered by the fault flags and the `stored` input.
- `handleMe`, and the JSON binding and `UpdateUser` call of `handleUpdateMe`, are left out. So is the database check that `prefMeasure` names a valid `measure_type`.
- recipes.go, ingredients.go, pantry.go, aws.go, config.go, models/*.go, psql.go, common.go and main.go are CRUD over generated queries, S3/SES I/O, YAML loading and routing. None of them is part of this model.

## Findings

| source | as written | input that shows it | evidently intended | confidence | as-written member | corrected member |
|---|---|---|---|---|---|---|
| auth.go:176 | `byte(getTimeStep(offset))` mixes only the low 8 bits of the step; since 60000 ≡ 96 (mod 256) the byte repeats every 8 steps | hash issued at step index k, login with the same code at step index k+8 (eight minutes later): the digest at offset 4 matches, so the login succeeds | the hash expires after five minutes (auth.go:202), accepted only for k ≤ k' ≤ k+4 | high; not executed | Otp.LowByteAcceptsEightStepsLater | Otp.FullWidthWindow |
| users.go:47-50 | after a failed `FormFile` the handler answers 400 but does not return; `defer file.Close()` then evaluates a method of the nil `multipart.File` and panics, which gin's Recovery middleware (main.go:154) catches | a request without an "image" field: the 400 answer is followed by a run-time panic; no picture is deleted and nothing is written | return right after the 400 answer | high; not executed | Users.MissingImagePanics | Users.UploadUserImage |

=== FILE: auth.dfy ===
/** The login handlers of auth.go: `requestOtp` issues a hash for a fresh
    code, the `authenticator` callback checks a (code, hash) pair against the
    current time window and resolves the user, and `payloadFunc` /
    `authorizator` map the result to token claims. */
module Auth {
  import opened Wrappers
  import opened Bytes
  import Hex
  import opened Otp
  import opened Users

  /** The claim the user's ID is stored under (`identityKey`). */
  function IdentityKey(): Str {
    Ascii("id")
  }

  /** The `login` form: e-mail, code and the hash `requestOtp` returned. */
  datatype LoginForm = LoginForm(email: Str, otp: Str, hash: Str)

  /** gin's binding of `login`: every field present (non-empty), the e-mail
      accepted by the validator's `email` rule (`isEmail`), and the code of
      length 6. Only the length of the code is checked, not that it is digits. */
  predicate Binds(form: LoginForm, isEmail: Str -> bool) {
    form.email != [] && isEmail(form.email) && |form.otp| == OTP_LENGTH && form.hash != []
  }

  datatype JwtUser = JwtUser(id: Str)

  /** The dynamically typed values gin-jwt passes around (`interface{}`): a
      `*JwtUser`, a string, or nil. */
  datatype Payload = UserPayload(user: JwtUser) | StringPayload(s: Str) | NilPayload

  /** The gin-jwt errors the authenticator returns. */
  datatype JwtError = ErrMissingLoginValues | ErrFailedAuthentication

  /** The authenticator's `(interface{}, error)` result and the user store
      after the call. */
  datatype LoginOutcome = LoginOutcome(data: Payload, err: Option<JwtError>, db: Db)

  predicate BodyBinds(body: Option<LoginForm>, isEmail: Str -> bool) {
    body.Some? && Binds(body.value, isEmail)
  }

  /** The login loop found the claimed hash among the window's digests. */
  predicate WindowMatches(cfg: OtpConfig, form: LoginForm, clock: seq<Int64>)
    requires |clock| == EXPR_OFF
  {
    Hex.Decode(form.hash).Success?
    && FirstMatch(cfg, form.email, form.otp, Hex.Decode(form.hash).value, clock, 0).Some?
  }

  /** The `authenticator` callback. `body` is the request (None when it does
      not parse), `clock` the reading `hashOtp` takes at each loop iteration,
      `newId` the identifier the database would give a new user. */
  function Authenticate(cfg: OtpConfig, body: Option<LoginForm>, isEmail: Str -> bool,
                        clock: seq<Int64>, db: Db, newId: Uuid): (out: LoginOutcome)
    requires |clock| == EXPR_OFF
    ensures !BodyBinds(body, isEmail) ==>
              out == LoginOutcome(StringPayload([]), Some(ErrMissingLoginValues), db)
    ensures BodyBinds(body, isEmail) && Hex.Decode(body.value.hash).Failure? ==>
              out == LoginOutcome(NilPayload, Some(ErrFailedAuthentication), db)
    ensures BodyBinds(body, isEmail) && Hex.Decode(body.value.hash).Success?
            && |Hex.Decode(body.value.hash).value| != DIGEST_SIZE ==>
              out == LoginOutcome(NilPayload, Some(ErrFailedAuthentication), db)
    ensures out.err.None? <==>
              && BodyBinds(body, isEmail)
              && WindowMatches(cfg, body.value, clock)
              && CreateOrGetNewUser(db, body.value.email, newId).user.Success?
    ensures out.err.None? ==>
              && out.data == UserPayload(JwtUser(UuidString(CreateOrGetNewUser(db, body.value.email, newId).user.value.id)))
              && out.db == CreateOrGetNewUser(db, body.value.email, newId).db
    ensures out.err.Some? ==> out.db == db && !out.data.UserPayload?
    ensures out.err.Some? && BodyBinds(body, isEmail) ==> out.err == Some(ErrFailedAuthentication)
  {
    if body.None? || !Binds(body.value, isEmail) then
      LoginOutcome(StringPayload([]), Some(ErrMissingLoginValues), db)
    else
      var form := body.value;
      match Hex.Decode(form.hash)
      case Failure(_) => LoginOutcome(NilPayload, Some(ErrFailedAuthentication), db)
      case Success(expected) =>
        if FirstMatch(cfg, form.email, form.otp, expected, clock, 0).None? then
          LoginOutcome(NilPayload, Some(ErrFailedAuthentication), db)
        else
          var r := CreateOrGetNewUser(db, form.email, newId);
          match r.user
          case Failure(_) => LoginOutcome(NilPayload, Some(ErrFailedAuthentication), r.db)
          case Success(u) => LoginOutcome(UserPayload(JwtUser(UuidString(u.id))), None, r.db)
  }

  /** `payloadFunc`: a `*JwtUser` becomes the single claim "id"; anything
      else becomes no claims. */
  function PayloadFunc(data: Payload): (claims: map<Str, Str>)
    ensures IdentityKey() in claims <==> data.UserPayload?
    ensures claims.Keys <= {IdentityKey()}
    ensures data.UserPayload? ==> claims[IdentityKey()] == data.user.id
  {
    match data
    case UserPayload(u) => map[IdentityKey() := u.id]
    case _ => map[]
  }

  /** `authorizator`: true for a `*JwtUser` and nothing else. (`initParams`
      does not install it, so gin-jwt's default authorizer is what runs.) */
  function Authorizator(data: Payload): (ok: bool)
    ensures ok <==> IdentityKey() in PayloadFunc(data)
  {
    data.UserPayload?
  }

  /** A successful login yields claims naming exactly the resolved user's ID.
      The `Authorizator` conjunct is about the function alone: `initParams`
      never installs it (auth.go:114-127), and if it were installed gin-jwt
      would hand it the identity handler's value, not this payload. */
  lemma LoginClaims(cfg: OtpConfig, body: Option<LoginForm>, isEmail: Str -> bool,
                    clock: seq<Int64>, db: Db, newId: Uuid)
    requires |clock| == EXPR_OFF
    requires Authenticate(cfg, body, isEmail, clock, db, newId).err.None?
    ensures var out := Authenticate(cfg, body, isEmail, clock, db, newId);
            var user := CreateOrGetNewUser(db, body.value.email, newId).user.value;
            && Authorizator(out.data)
            && PayloadFunc(out.data) == map[IdentityKey() := UuidString(user.id)]
  {
  }

  /** Claims from two successful logins are equal only when the same user
      was resolved. */
  lemma ClaimsIdentifyUser(cfg: OtpConfig, isEmail: Str -> bool,
                           b1: Option<LoginForm>, c1: seq<Int64>, db1: Db, n1: Uuid,
                           b2: Option<LoginForm>, c2: seq<Int64>, db2: Db, n2: Uuid)
    requires |c1| == EXPR_OFF && |c2| == EXPR_OFF
    requires Authenticate(cfg, b1, isEmail, c1, db1, n1).err.None?
    requires Authenticate(cfg, b2, isEmail, c2, db2, n2).err.None?
    requires PayloadFunc(Authenticate(cfg, b1, isEmail, c1, db1, n1).data)
             == PayloadFunc(Authenticate(cfg, b2, isEmail, c2, db2, n2).data)
    ensures CreateOrGetNewUser(db1, b1.value.email, n1).user.value.id
            == CreateOrGetNewUser(db2, b2.value.email, n2).user.value.id
  {
    var u1 := CreateOrGetNewUser(db1, b1.value.email, n1).user.value;
    var u2 := CreateOrGetNewUser(db2, b2.value.email, n2).user.value;
    LoginClaims(cfg, b1, isEmail, c1, db1, n1);
    LoginClaims(cfg, b2, isEmail, c2, db2, n2);
    assert map[IdentityKey() := UuidString(u1.id)][IdentityKey()] == UuidString(u1.id);
    UuidStringInjective(u1.id, u2.id);
  }

  /** The answer of `requestOtp`: a 400 for a body that does not bind, or the
      hex hash returned to the client together with the code that is mailed
      (or logged). */
  datatype OtpResponse = BadRequest | Issued(hash: Str, otp: Str)

  /** `requestOtp`: the body binds when it carries an e-mail the `email` rule
      accepts; the code comes from `generateOtp` (`picks` are its random
      draws) and the hash is issued for offset `EXPR_OFF - 1` at clock `now`. */
  method RequestOtp(cfg: OtpConfig, email: Option<Str>, isEmail: Str -> bool,
                    picks: seq<nat>, now: Int64) returns (resp: OtpResponse)
    requires |picks| == OTP_LENGTH
    requires forall i | 0 <= i < OTP_LENGTH :: picks[i] < 10
    ensures resp.BadRequest? <==> email.None? || email.value == [] || !isEmail(email.value)
    ensures resp.Issued? ==>
              && |resp.otp| == OTP_LENGTH
              && (forall i | 0 <= i < OTP_LENGTH :: IsDigit(resp.otp[i]))
              && resp.hash == IssuedHash(cfg, email.value, resp.otp, now)
              && Hex.Decode(resp.hash) == Success(HashOtp(cfg, email.value, resp.otp, TimeStep(now, EXPR_OFF - 1)))
  {
    if email.None? || email.value == [] || !isEmail(email.value) {
      return BadRequest;
    }
    var otp := GenerateOtp(picks);
    resp := Issued(IssuedHash(cfg, email.value, otp, now), otp);
  }

  /** End to end, as written: logging in with a hash `requestOtp` issued at
      clock `issuedAt`, and the code mailed with it, succeeds at clock
      `loginAt` (fixed during the loop) exactly when (k' - k) mod 8 is in 0..4
      for step indices k and k', and the user can be resolved. The "only if"
      half needs the keyed hash to separate time bytes. */
  lemma LoginWindow(cfg: OtpConfig, email: Str, otp: Str, isEmail: Str -> bool,
                    issuedAt: Int64, loginAt: Int64, db: Db, newId: Uuid)
    requires cfg.encoding == LowByteOnly
    requires SeparatesTimes(cfg, email, otp)
    requires email != [] && isEmail(email) && |otp| == OTP_LENGTH
    ensures var form := LoginForm(email, otp, IssuedHash(cfg, email, otp, issuedAt));
            Authenticate(cfg, Some(form), isEmail, ConstantClock(loginAt), db, newId).err.None?
            <==> (BucketIndex(loginAt) - BucketIndex(issuedAt)) % 8 <= 4
                 && CreateOrGetNewUser(db, email, newId).user.Success?
  {
    LowByteWindow(cfg, email, otp, issuedAt, loginAt);
  }

  /** The intended guarantee, needing no hypothesis on the keyed hash: a
      login in the issuing minute or one of the next four succeeds whenever
      the user can be resolved. */
  lemma LoginWithinFiveMinutes(cfg: OtpConfig, email: Str, otp: Str, isEmail: Str -> bool,
                               issuedAt: Int64, loginAt: Int64, db: Db, newId: Uuid)
    requires cfg.encoding == LowByteOnly
    requires email != [] && isEmail(email) && |otp| == OTP_LENGTH
    requires BucketIndex(issuedAt) <= BucketIndex(loginAt) <= BucketIndex(issuedAt) + 4
    requires CreateOrGetNewUser(db, email, newId).user.Success?
    ensures var form := LoginForm(email, otp, IssuedHash(cfg, email, otp, issuedAt));
            Authenticate(cfg, Some(form), isEmail, ConstantClock(loginAt), db, newId).err.None?
  {
    AcceptedWithinFiveSteps(cfg, email, otp, issuedAt, loginAt);
  }

  /** End to end, corrected: with the full time step mixed in, the issued
      hash is accepted exactly in the issuing minute and the next four. */
  lemma LoginWindowFullWidth(cfg: OtpConfig, email: Str, otp: Str, isEmail: Str -> bool,
                             issuedAt: Int64, loginAt: Int64, db: Db, newId: Uuid)
    requires cfg.encoding == FullWidth
    requires SeparatesTimes(cfg, email, otp)
    requires SaneClock(issuedAt) && SaneClock(loginAt)
    requires email != [] && isEmail(email) && |otp| == OTP_LENGTH
    ensures var form := LoginForm(email, otp, IssuedHash(cfg, email, otp, issuedAt));
            Authenticate(cfg, Some(form), isEmail, ConstantClock(loginAt), db, newId).err.None?
            <==> BucketIndex(issuedAt) <= BucketIndex(loginAt) <= BucketIndex(issuedAt) + 4
                 && CreateOrGetNewUser(db, email, newId).user.Success?
  {
    FullWidthWindow(cfg, email, otp, issuedAt, loginAt);
  }
}

=== FILE: bytes.dfy ===
/** Byte-level vocabulary shared by the OTP scheme, the sync fingerprint and the
    user handlers: Go bytes and strings, 64-bit two's-complement integers, and
    fixed-width big-endian encodings. */
module Bytes {

  /** A Go `byte`. */
  type byte = x: int | 0 <= x < 256

  /** A Go `string`: an immutable sequence of bytes (no encoding is implied). */
  type Str = seq<byte>

  const INT64_MIN: int := -0x8000_0000_0000_0000
  const INT64_MAX: int := 0x7FFF_FFFF_FFFF_FFFF
  const TWO_64: int := 0x1_0000_0000_0000_0000

  /** A Go `int64`. */
  type Int64 = x: int | INT64_MIN <= x <= INT64_MAX

  /** The bytes of an ASCII string literal. */
  function Ascii(s: string): (r: Str)
    requires forall i | 0 <= i < |s| :: s[i] as int < 128
    ensures |r| == |s|
    ensures forall i | 0 <= i < |s| :: r[i] == s[i] as int
  {
    if |s| == 0 then [] else [s[0] as int] + Ascii(s[1..])
  }

  /** Two's-complement wrap-around of an arithmetic result into `int64`,
      as Go's `int64` addition and multiplication do on overflow. */
  function Wrap64(x: int): (r: Int64)
    ensures INT64_MIN <= x <= INT64_MAX ==> r == x
    ensures (r - x) % 0x1_0000_0000_0000_0000 == 0
  {
    (x - INT64_MIN) % 0x1_0000_0000_0000_0000 + INT64_MIN
  }

  /** Go's conversion `byte(x)` of an integer: its low eight bits. */
  function LowByte(x: int): (b: byte)
    ensures (x - b) % 256 == 0
  {
    x % 256
  }

  /** Values that differ by a multiple of 2^64 have the same low byte; in
      particular wrapping into `int64` never changes it. */
  lemma LowByteCongruent(x: int, y: int)
    requires (x - y) % 0x1_0000_0000_0000_0000 == 0
    ensures LowByte(x) == LowByte(y)
  {
    var q := (x - y) / 0x1_0000_0000_0000_0000;
    assert x - y == q * 0x1_0000_0000_0000_0000;
    var m := q * 0x100_0000_0000_0000;
    assert x == y + m * 256;
  }

  function Pow256(n: nat): (p: nat)
    ensures p > 0
  {
    if n == 0 then 1 else 256 * Pow256(n - 1)
  }

  /** The `n`-byte big-endian encoding of `u mod 256^n`. */
  function ToBigEndian(u: nat, n: nat): (r: seq<byte>)
    ensures |r| == n
  {
    if n == 0 then [] else ToBigEndian(u / 256, n - 1) + [u % 256]
  }

  /** The unsigned value of a big-endian byte string. */
  function FromBigEndian(bs: seq<byte>): (u: nat)
    ensures u < Pow256(|bs|)
  {
    if |bs| == 0 then 0 else FromBigEndian(bs[..|bs| - 1]) * 256 + bs[|bs| - 1]
  }

  lemma {:induction false} FromToBigEndian(u: nat, n: nat)
    requires u < Pow256(n)
    ensures FromBigEndian(ToBigEndian(u, n)) == u
  {
    if n > 0 {
      var q, r := u / 256, u % 256;
      assert u == q * 256 + r;
      assert q < Pow256(n - 1) by {
        assert u < 256 * Pow256(n - 1);
      }
      var bs := ToBigEndian(u, n);
      assert bs[..n - 1] == ToBigEndian(q, n - 1);
      assert bs[n - 1] == r;
      FromToBigEndian(q, n - 1);
      assert FromBigEndian(bs) == FromBigEndian(bs[..n - 1]) * 256 + r;
    }
  }

  lemma Pow256Of8()
    ensures Pow256(8) == TWO_64
  {
    assert Pow256(4) == 0x1_0000_0000;
    assert Pow256(8) == 256 * 256 * 256 * 256 * Pow256(4);
  }

  /** `binary.Write(buf, binary.BigEndian, x)` for an `int64` x: eight bytes,
      two's complement, most significant first. */
  function Int64ToBytes(x: Int64): (r: seq<byte>)
    ensures |r| == 8
  {
    ToBigEndian(if x < 0 then x + TWO_64 else x, 8)
  }

  /** `binary.BigEndian.Uint64` reinterpreted as `int64`. */
  function Int64FromBytes(bs: seq<byte>): Int64
    requires |bs| == 8
  {
    Pow256Of8();
    var u := FromBigEndian(bs);
    if u > INT64_MAX then u - TWO_64 else u
  }

  /** The eight-byte big-endian encoding of an `int64` is decoded back to the
      same value, so it is injective. */
  lemma Int64BytesRoundTrip(x: Int64)
    ensures Int64FromBytes(Int64ToBytes(x)) == x
  {
    Pow256Of8();
    FromToBigEndian(if x < 0 then x + TWO_64 else x, 8);
  }

  lemma Int64BytesInjective(x: Int64, y: Int64)
    requires Int64ToBytes(x) == Int64ToBytes(y)
    ensures x == y
  {
    Int64BytesRoundTrip(x);
    Int64BytesRoundTrip(y);
  }
}

=== FILE: fnv.dfy ===
/** 32-bit FNV-1a, as Go's `hash/fnv.New32a`: start from the offset basis and,
    for each byte, xor it in and then multiply by the FNV prime modulo 2^32. */
module Fnv {
  import opened Bytes

  const OFFSET_BASIS: bv32 := 2166136261
  const PRIME: bv32 := 16777619

  /** One byte of FNV-1a: xor, then multiply (wrapping at 32 bits). */
  function Step(h: bv32, b: byte): bv32 {
    (h ^ (b as bv32)) * PRIME
  }

  /** The state after feeding `bs`, in order, to a hash in state `h`. */
  function Fold(h: bv32, bs: seq<byte>): bv32
    decreases |bs|
  {
    if |bs| == 0 then h else Fold(Step(h, bs[0]), bs[1..])
  }

  /** `Sum32` of a fresh hash after one `Write(bs)`. */
  function Sum32(bs: seq<byte>): bv32 {
    Fold(OFFSET_BASIS, bs)
  }

  /** Feeding two chunks one after the other equals feeding their concatenation:
      the hash is a left fold. */
  lemma {:induction false} FoldAppend(h: bv32, xs: seq<byte>, ys: seq<byte>)
    ensures Fold(h, xs + ys) == Fold(Fold(h, xs), ys)
    decreases |xs|
  {
    if |xs| > 0 {
      assert (xs + ys)[1..] == xs[1..] + ys;
      FoldAppend(Step(h, xs[0]), xs[1..], ys);
    } else {
      assert xs + ys == ys;
    }
  }

  lemma FoldSnoc(h: bv32, xs: seq<byte>, b: byte)
    ensures Fold(h, xs + [b]) == Step(Fold(h, xs), b)
  {
    FoldAppend(h, xs, [b]);
  }

  /** `h := fnv.New32a(); h.Write(data); h.Sum32()`, byte by byte. */
  method Hash32(data: seq<byte>) returns (hash: bv32)
    ensures hash == Sum32(data)
    ensures |data| == 0 ==> hash == 2166136261
  {
    hash := OFFSET_BASIS;
    for j := 0 to |data|
      invariant hash == Fold(OFFSET_BASIS, data[..j])
    {
      FoldSnoc(OFFSET_BASIS, data[..j], data[j]);
      assert data[..j + 1] == data[..j] + [data[j]];
      hash := Step(hash, data[j]);
    }
    assert data[..|data|] == data;
  }
}

=== FILE: hex.dfy ===
/** Base16 ("hex") encoding as in section 8 of RFC 4648, with the behaviour of
    Go's `encoding/hex`: `EncodeToString` emits lower-case digits and
    `DecodeString` accepts either case. */
module Hex {
  import opened Wrappers
  import opened Bytes

  /** The ASCII digit for a nibble, lower case: '0'..'9' then 'a'..'f'. */
  function Digit(n: int): (c: byte)
    requires 0 <= n < 16
  {
    if n < 10 then 48 + n else 87 + n
  }

  predicate IsLowerHexChar(c: byte) {
    48 <= c <= 57 || 97 <= c <= 102
  }

  predicate IsHexChar(c: byte) {
    IsLowerHexChar(c) || 65 <= c <= 70
  }

  predicate AllHex(s: Str) {
    forall i | 0 <= i < |s| :: IsHexChar(s[i])
  }

  /** The nibble a hex digit stands for. */
  function Value(c: byte): (v: int)
    requires IsHexChar(c)
    ensures 0 <= v < 16
  {
    if c <= 57 then c - 48 else if c <= 70 then c - 55 else c - 87
  }

  /** An ASCII upper-case hex letter folded to lower case; other bytes unchanged. */
  function LowerChar(c: byte): byte {
    if 65 <= c <= 70 then c + 32 else c
  }

  function LowerHex(s: Str): (r: Str)
    ensures |r| == |s|
  {
    if |s| == 0 then [] else [LowerChar(s[0])] + LowerHex(s[1..])
  }

  /** The byte a pair of hex digits stands for, high nibble first. */
  function Pair(hi: byte, lo: byte): (b: byte)
    requires IsHexChar(hi) && IsHexChar(lo)
    ensures b / 16 == Value(hi) && b % 16 == Value(lo)
  {
    Value(hi) * 16 + Value(lo)
  }

  lemma ValueOfDigit(n: int)
    requires 0 <= n < 16
    ensures IsLowerHexChar(Digit(n)) && Value(Digit(n)) == n
  {
  }

  lemma DigitOfValue(c: byte)
    requires IsHexChar(c)
    ensures Digit(Value(c)) == LowerChar(c)
  {
  }

  /** A byte is the pair of its two digits. */
  lemma PairOfDigits(b: byte)
    ensures Pair(Digit(b / 16), Digit(b % 16)) == b
  {
    ValueOfDigit(b / 16);
    ValueOfDigit(b % 16);
  }

  /** `hex.EncodeToString`. */
  function Encode(bs: seq<byte>): (s: Str)
    ensures |s| == 2 * |bs|
    ensures forall i | 0 <= i < |s| :: IsLowerHexChar(s[i])
  {
    if |bs| == 0 then [] else [Digit(bs[0] / 16), Digit(bs[0] % 16)] + Encode(bs[1..])
  }

  /** The two errors `hex.DecodeString` can report. */
  datatype HexError = InvalidByte(b: byte) | ErrLength

  /** The pair loop of `hex.Decode`: decodes the longest even-length prefix and
      reports the first non-hex byte met in it. */
  function DecodePairs(s: Str): (r: Result<seq<byte>, HexError>)
    ensures r.Success? <==> AllHex(s[..|s| - |s| % 2])
    ensures r.Success? ==> |r.value| == |s| / 2
    ensures r.Failure? ==> r.error.InvalidByte? && !IsHexChar(r.error.b) && r.error.b in s
  {
    if |s| < 2 then Success([])
    else if !IsHexChar(s[0]) then Failure(InvalidByte(s[0]))
    else if !IsHexChar(s[1]) then Failure(InvalidByte(s[1]))
    else
      match DecodePairs(s[2..])
      case Failure(e) => Failure(e)
      case Success(rest) =>
        assert s[..|s| - |s| % 2] == s[..2] + s[2..][..|s[2..]| - |s[2..]| % 2];
        Success([Pair(s[0], s[1])] + rest)
  }

  /** `hex.DecodeString`: the pairs first; then, for an odd length, a non-hex
      trailing byte is reported before the length error. */
  function Decode(s: Str): (r: Result<seq<byte>, HexError>)
    ensures r.Success? <==> |s| % 2 == 0 && AllHex(s)
    ensures r.Success? ==> |r.value| == |s| / 2
    ensures r.Failure? && r.error.InvalidByte? ==> !IsHexChar(r.error.b) && r.error.b in s
    ensures r.Failure? && r.error.ErrLength? ==> |s| % 2 == 1 && AllHex(s)
  {
    var pairs := DecodePairs(s);
    AllHexSplit(s, |s| - |s| % 2);
    if pairs.Failure? then pairs
    else if |s| % 2 == 0 then
      assert s[..|s|] == s;
      pairs
    else if !IsHexChar(s[|s| - 1]) then Failure(InvalidByte(s[|s| - 1]))
    else Failure(ErrLength)
  }

  /** A string is all hex exactly when a prefix and the rest are. */
  lemma AllHexSplit(s: Str, n: nat)
    requires n <= |s|
    ensures AllHex(s) <==> AllHex(s[..n]) && forall i | n <= i < |s| :: IsHexChar(s[i])
  {
    if AllHex(s[..n]) && forall i | n <= i < |s| :: IsHexChar(s[i]) {
      forall i | 0 <= i < |s|
        ensures IsHexChar(s[i])
      {
        if i < n {
          assert s[i] == s[..n][i];
        }
      }
    }
  }

  /** Decoding what `Encode` produced gives back the original bytes. */
  lemma {:induction false} DecodeEncode(bs: seq<byte>)
    ensures Decode(Encode(bs)) == Success(bs)
  {
    DecodePairsEncode(bs);
    var s := Encode(bs);
    assert s[..|s| - |s| % 2] == s;
  }

  lemma {:induction false} DecodePairsEncode(bs: seq<byte>)
    ensures DecodePairs(Encode(bs)) == Success(bs)
  {
    if |bs| > 0 {
      var s := Encode(bs);
      var hi, lo := Digit(bs[0] / 16), Digit(bs[0] % 16);
      assert s == [hi, lo] + Encode(bs[1..]);
      assert s[0] == hi && s[1] == lo && s[2..] == Encode(bs[1..]);
      ValueOfDigit(bs[0] / 16);
      ValueOfDigit(bs[0] % 16);
      DecodePairsEncode(bs[1..]);
      PairOfDigits(bs[0]);
      assert DecodePairs(s) == Success([Pair(hi, lo)] + bs[1..]);
      assert bs == [bs[0]] + bs[1..];
    }
  }

  /** Conversely, re-encoding what `Decode` accepted gives the input with its
      upper-case digits folded to lower case. */
  lemma {:induction false} EncodeDecode(s: Str)
    requires Decode(s).Success?
    ensures Encode(Decode(s).value) == LowerHex(s)
  {
    assert s[..|s| - |s| % 2] == s;
    EncodeDecodePairs(s);
  }

  lemma {:induction false} EncodeDecodePairs(s: Str)
    requires |s| % 2 == 0 && AllHex(s)
    ensures DecodePairs(s).Success? && Encode(DecodePairs(s).value) == LowerHex(s)
  {
    assert s[..|s| - |s| % 2] == s;
    if |s| > 0 {
      var t := s[2..];
      assert t[..|t| - |t| % 2] == t;
      EncodeDecodePairs(t);
      var b := Pair(s[0], s[1]);
      assert Encode([b] + DecodePairs(t).value)[2..] == Encode(DecodePairs(t).value) by {
        assert ([b] + DecodePairs(t).value)[1..] == DecodePairs(t).value;
      }
      DigitOfValue(s[0]);
      DigitOfValue(s[1]);
      assert LowerHex(s)[2..] == LowerHex(t) by {
        assert s[1..][1..] == t;
      }
    }
  }

  /** Distinct byte strings have distinct encodings. */
  lemma EncodeInjective(a: seq<byte>, b: seq<byte>)
    requires Encode(a) == Encode(b)
    ensures a == b
  {
    DecodeEncode(a);
    DecodeEncode(b);
  }
}

=== FILE: otp.dfy ===
/** The time-windowed one-time-password scheme of auth.go: a login hash is an
    HMAC-SHA1 digest, keyed by a server secret, of the e-mail address, the
    six-digit code and (a byte of) the current one-minute time step. Nothing is
    stored: the server recomputes the digest for the current step and the next
    four, and accepts when one of them equals the hash the client sends back.

    HMAC-SHA1 (RFC 2104 over FIPS 180-4 SHA-1) is not modelled: the keyed hash
    is a field `mac` of the configuration, any function from (key, message) to
    20 bytes. */
module Otp {
  import opened Wrappers
  import opened Bytes
  import Hex

  // A time step is one minute: `TIME_INT` = 60000 milliseconds. It is written
  // as a literal below, so that the solver sees linear arithmetic.
  /** Number of time steps a hash is looked for in (`EXPR_OFF`). */
  const EXPR_OFF: nat := 5
  /** Length of a generated code. */
  const OTP_LENGTH: nat := 6
  /** Length of an HMAC-SHA1 digest. */
  const DIGEST_SIZE: nat := 20

  type Digest = s: seq<byte> | |s| == DIGEST_SIZE witness seq(20, i => 0)

  /** A keyed hash: (key, message) to digest. */
  type Mac = (Str, Str) -> Digest

  /** How the time step is mixed into the hashed message. `LowByteOnly` is what
      `hashOtp` does (`byte(getTimeStep(offset))`); `FullWidth`, the step's
      eight big-endian bytes, is the corrected form (see `FullWidthWindow`). */
  datatype TimeEncoding = LowByteOnly | FullWidth

  /** The process-wide secret (read from the environment at start-up), the
      keyed hash, and the time encoding. */
  datatype OtpConfig = OtpConfig(secret: Str, mac: Mac, encoding: TimeEncoding)

  /** Go's `now % TIME_INT`: the remainder takes the sign of `now`. */
  function RemMinute(now: int): (r: int)
    ensures now >= 0 ==> 0 <= r < 60000
    ensures now < 0 ==> -60000 < r <= 0
  {
    if now >= 0 then now % 60000 else -((-now) % 60000)
  }

  /** Index of the time step `now` falls in: the quotient truncated toward
      zero, as Go's integer division. */
  function BucketIndex(now: int): (k: int)
    ensures now - RemMinute(now) == k * 60000
  {
    if now >= 0 then now / 60000 else -((-now) / 60000)
  }

  /** `getTimeStep` performs no wrapping `int64` arithmetic for these inputs. */
  predicate NoOverflow(now: Int64, offset: Int64) {
    INT64_MIN <= (BucketIndex(now) + offset) * 60000 <= INT64_MAX
    && INT64_MIN <= offset * 60000 <= INT64_MAX
  }

  /** `getTimeStep(offset)` with the clock reading `now` (epoch milliseconds):
      the start of the current step, `now - now % TIME_INT`, plus `offset`
      steps, in wrapping `int64` arithmetic. */
  function TimeStep(now: Int64, offset: Int64): (step: Int64)
    ensures NoOverflow(now, offset) ==> step == (BucketIndex(now) + offset) * 60000
    ensures LowByte(step) == LowByte((BucketIndex(now) + offset) * 60000)
  {
    var curr := now - RemMinute(now);
    var w := Wrap64(offset * 60000);
    var step := Wrap64(curr + w);
    LowByteCongruent(step, curr + w);
    LowByteCongruent(w, offset * 60000);
    LowByteOfSum(curr, w, offset * 60000);
    step
  }

  /** The low byte of a sum depends only on the low bytes of the summands. */
  lemma LowByteOfSum(a: int, b: int, c: int)
    requires LowByte(b) == LowByte(c)
    ensures LowByte(a + b) == LowByte(a + c)
  {
  }

  /** The current step of a non-negative clock is a multiple of a minute and
      is the minute `now` lies in; a negative clock is truncated upward. */
  lemma StepBracketsNow(now: Int64)
    ensures TimeStep(now, 0) % 60000 == 0
    ensures now >= 0 ==> TimeStep(now, 0) <= now < TimeStep(now, 0) + 60000
    ensures now < 0 ==> TimeStep(now, 0) - 60000 < now <= TimeStep(now, 0)
  {
    var k := BucketIndex(now);
    var r := RemMinute(now);
    assert now - r == k * 60000;
    assert NoOverflow(now, 0);
    MinuteMultiple(k);
  }

  /** A whole number of minutes is a multiple of 60000. */
  lemma MinuteMultiple(k: int)
    ensures (k * 60000) % 60000 == 0
  {
  }

  /** The bytes of the step that enter the message. */
  function TimeBytes(enc: TimeEncoding, step: Int64): (t: Str)
    ensures enc == LowByteOnly ==> |t| == 1 && t[0] == LowByte(step)
    ensures enc == FullWidth ==> |t| == 8 && Int64FromBytes(t) == step
  {
    match enc
    case LowByteOnly => [LowByte(step)]
    case FullWidth => Int64BytesRoundTrip(step); Int64ToBytes(step)
  }

  /** The three `Write`s of `hashOtp`, in order: e-mail, code, time bytes. */
  function OtpMessage(email: Str, otp: Str, t: Str): (m: Str)
    ensures |m| == |email| + |otp| + |t|
    ensures m[..|email|] == email
    ensures m[|email|..|email| + |otp|] == otp
    ensures m[|email| + |otp|..] == t
  {
    email + otp + t
  }

  /** With the code length fixed, the message determines e-mail, code and time
      bytes. */
  lemma OtpMessageInjective(e1: Str, o1: Str, t1: Str, e2: Str, o2: Str, t2: Str)
    requires |o1| == |o2| && |t1| == |t2|
    requires OtpMessage(e1, o1, t1) == OtpMessage(e2, o2, t2)
    ensures e1 == e2 && o1 == o2 && t1 == t2
  {
  }

  /** `hashOtp`: the keyed digest of the message for the given time step. */
  function HashOtp(cfg: OtpConfig, email: Str, otp: Str, step: Int64): (d: Digest)
    ensures d == cfg.mac(cfg.secret, OtpMessage(email, otp, TimeBytes(cfg.encoding, step)))
  {
    cfg.mac(cfg.secret, email + otp + TimeBytes(cfg.encoding, step))
  }

  /** The byte `byte(k * 60000)` for the residue of the step index modulo 8. */
  function AliasByte(r: int): byte
    requires 0 <= r < 8
  {
    [0, 96, 192, 32, 128, 224, 64, 160][r]
  }

  /** Since 60000 = 96 (mod 256) and 96 * 8 = 0 (mod 256), the low byte of
      step index `k` is determined by `k mod 8` alone. */
  lemma StepByte(k: int)
    ensures LowByte(k * 60000) == AliasByte(k % 8)
  {
    var q, r := k / 8, k % 8;
    assert k == 8 * q + r;
    assert k * 60000 == r * 60000 + (q * 1875) * 256;
    ModShift256(r * 60000, q * 1875);
    AliasByteTable(r);
  }

  /** The table entries, one residue at a time: each branch leaves Z3 a
      single literal product to reduce modulo 256. */
  lemma AliasByteTable(r: int)
    requires 0 <= r < 8
    ensures LowByte(r * 60000) == AliasByte(r)
  {
    if r == 0 {
    } else if r == 1 {
    } else if r == 2 {
    } else if r == 3 {
    } else if r == 4 {
    } else if r == 5 {
    } else if r == 6 {
    } else {
      assert r == 7;
    }
  }

  /** Adding a multiple of 256 keeps the low byte. Kept apart so that the
      nonlinear term is seen on its own. */
  lemma ModShift256(x: int, m: int)
    ensures LowByte(x + m * 256) == LowByte(x)
  {
  }

  /** Two step indices give the same low byte exactly when they agree modulo 8. */
  lemma StepByteAlias(a: int, b: int)
    ensures LowByte(a * 60000) == LowByte(b * 60000) <==> a % 8 == b % 8
  {
    StepByte(a);
    StepByte(b);
  }

  /** Only the low byte of the step enters the as-written digest, so two clock
      readings and offsets whose step indices agree modulo 8 give the same
      digest. */
  lemma HashOtpAliasing(cfg: OtpConfig, email: Str, otp: Str,
                        now1: Int64, off1: Int64, now2: Int64, off2: Int64)
    requires cfg.encoding == LowByteOnly
    requires (BucketIndex(now1) + off1) % 8 == (BucketIndex(now2) + off2) % 8
    ensures HashOtp(cfg, email, otp, TimeStep(now1, off1)) == HashOtp(cfg, email, otp, TimeStep(now2, off2))
  {
    StepByteAlias(BucketIndex(now1) + off1, BucketIndex(now2) + off2);
  }

  /** The digest `requestOtp` issues: `hashOtp` at offset `EXPR_OFF - 1`, the
      last step the authenticator will look at. */
  function IssuedDigest(cfg: OtpConfig, email: Str, otp: Str, now: Int64): Digest {
    HashOtp(cfg, email, otp, TimeStep(now, EXPR_OFF - 1))
  }

  /** `getHashString(hashOtp(...))`: the issued digest as lower-case hex. */
  function IssuedHash(cfg: OtpConfig, email: Str, otp: Str, now: Int64): (h: Str)
    ensures |h| == 2 * DIGEST_SIZE
    ensures Hex.Decode(h) == Success(IssuedDigest(cfg, email, otp, now))
  {
    Hex.DecodeEncode(IssuedDigest(cfg, email, otp, now));
    Hex.Encode(IssuedDigest(cfg, email, otp, now))
  }

  /** The digest the login loop computes at offset `off`, from the clock
      reading it takes at that iteration. */
  function Candidate(cfg: OtpConfig, email: Str, otp: Str, clock: seq<Int64>, off: nat): Digest
    requires |clock| == EXPR_OFF && off < EXPR_OFF
  {
    HashOtp(cfg, email, otp, TimeStep(clock[off], off))
  }

  /** The digests the login loop computes, one per offset. */
  function WindowDigests(cfg: OtpConfig, email: Str, otp: Str, clock: seq<Int64>): (ds: seq<Digest>)
    requires |clock| == EXPR_OFF
    ensures |ds| == EXPR_OFF
    ensures forall j | 0 <= j < EXPR_OFF :: ds[j] == Candidate(cfg, email, otp, clock, j)
  {
    seq(EXPR_OFF, j requires 0 <= j < EXPR_OFF => Candidate(cfg, email, otp, clock, j))
  }

  /** The first index from `off` on at which `ds` holds `expected`, if any. */
  function FirstIndex(ds: seq<Digest>, expected: seq<byte>, off: nat): (r: Option<nat>)
    requires off <= |ds|
    ensures r.Some? ==> off <= r.value < |ds| && ds[r.value] == expected
    ensures |expected| != DIGEST_SIZE ==> r.None?
    decreases |ds| - off
  {
    if off == |ds| then None
    else if ds[off] == expected then Some(off)
    else FirstIndex(ds, expected, off + 1)
  }

  /** The index found is the first one, and there is none exactly when no
      element from `off` on equals `expected`. */
  lemma {:induction false} FirstIndexIsFirst(ds: seq<Digest>, expected: seq<byte>, off: nat)
    requires off <= |ds|
    ensures FirstIndex(ds, expected, off).Some? ==>
              forall j | off <= j < FirstIndex(ds, expected, off).value :: ds[j] != expected
    ensures FirstIndex(ds, expected, off).None? <==> forall j | off <= j < |ds| :: ds[j] != expected
    decreases |ds| - off
  {
    if off < |ds| && ds[off] != expected {
      FirstIndexIsFirst(ds, expected, off + 1);
    }
  }

  /** The login loop from offset `off` on: the first offset below `EXPR_OFF`
      whose digest equals `expected`, if any (`hmac.Equal` is byte equality). */
  function FirstMatch(cfg: OtpConfig, email: Str, otp: Str, expected: seq<byte>,
                      clock: seq<Int64>, off: nat): (r: Option<nat>)
    requires |clock| == EXPR_OFF && off <= EXPR_OFF
    ensures r.Some? ==> off <= r.value < EXPR_OFF && Candidate(cfg, email, otp, clock, r.value) == expected
    ensures |expected| != DIGEST_SIZE ==> r.None?
  {
    FirstIndex(WindowDigests(cfg, email, otp, clock), expected, off)
  }

  /** The match is the first one, and there is none exactly when every digest
      of the window differs from `expected`. */
  lemma FirstMatchIsFirst(cfg: OtpConfig, email: Str, otp: Str, expected: seq<byte>,
                          clock: seq<Int64>, off: nat)
    requires |clock| == EXPR_OFF && off <= EXPR_OFF
    ensures FirstMatch(cfg, email, otp, expected, clock, off).Some? ==>
              forall j | off <= j < FirstMatch(cfg, email, otp, expected, clock, off).value ::
                Candidate(cfg, email, otp, clock, j) != expected
    ensures FirstMatch(cfg, email, otp, expected, clock, off).None? <==>
              forall j | off <= j < EXPR_OFF :: Candidate(cfg, email, otp, clock, j) != expected
  {
    FirstIndexIsFirst(WindowDigests(cfg, email, otp, clock), expected, off);
  }

  /** A clock that reads `now` on every iteration of the login loop. */
  function ConstantClock(now: Int64): (clock: seq<Int64>)
    ensures |clock| == EXPR_OFF && forall i | 0 <= i < EXPR_OFF :: clock[i] == now
  {
    seq(EXPR_OFF, i => now)
  }

  /** Whether a login at clock `loginAt` (not moving during the loop) finds the
      digest issued at clock `issuedAt`. */
  predicate AcceptedAt(cfg: OtpConfig, email: Str, otp: Str, issuedAt: Int64, loginAt: Int64) {
    FirstMatch(cfg, email, otp, IssuedDigest(cfg, email, otp, issuedAt), ConstantClock(loginAt), 0).Some?
  }

  /** The hypothesis rejection needs: for this e-mail and code, the keyed hash
      yields different digests for different time bytes. (It is about at most
      2^64 messages, far fewer than there are digests, so it can hold.) */
  ghost predicate SeparatesTimes(cfg: OtpConfig, email: Str, otp: Str) {
    forall s1: Int64, s2: Int64 {:trigger SameDigest(cfg, email, otp, s1, s2)} ::
      SameDigest(cfg, email, otp, s1, s2) ==> TimeBytes(cfg.encoding, s1) == TimeBytes(cfg.encoding, s2)
  }

  predicate SameDigest(cfg: OtpConfig, email: Str, otp: Str, s1: Int64, s2: Int64) {
    HashOtp(cfg, email, otp, s1) == HashOtp(cfg, email, otp, s2)
  }

  /** Under `SeparatesTimes`, equal digests come from equal time bytes. */
  lemma SeparatedSteps(cfg: OtpConfig, email: Str, otp: Str, s1: Int64, s2: Int64)
    requires SeparatesTimes(cfg, email, otp)
    requires HashOtp(cfg, email, otp, s1) == HashOtp(cfg, email, otp, s2)
    ensures TimeBytes(cfg.encoding, s1) == TimeBytes(cfg.encoding, s2)
  {
    assert SameDigest(cfg, email, otp, s1, s2);
  }

  /** As written, a hash is accepted whenever the login step index is 0 to 4
      steps after the issuing one modulo 8. */
  lemma LowByteAliasAccepts(cfg: OtpConfig, email: Str, otp: Str, issuedAt: Int64, loginAt: Int64)
    requires cfg.encoding == LowByteOnly
    requires (BucketIndex(loginAt) - BucketIndex(issuedAt)) % 8 <= 4
    ensures AcceptedAt(cfg, email, otp, issuedAt, loginAt)
  {
    var o := AliasOffset(BucketIndex(loginAt), BucketIndex(issuedAt));
    assert HashOtp(cfg, email, otp, TimeStep(loginAt, o)) == IssuedDigest(cfg, email, otp, issuedAt) by {
      HashOtpAliasing(cfg, email, otp, loginAt, o, issuedAt, EXPR_OFF - 1);
    }
    MatchAccepts(cfg, email, otp, issuedAt, loginAt, o);
  }

  /** A login whose digest at some offset equals the issued one is accepted. */
  lemma MatchAccepts(cfg: OtpConfig, email: Str, otp: Str, issuedAt: Int64, loginAt: Int64, o: nat)
    requires o < EXPR_OFF
    requires HashOtp(cfg, email, otp, TimeStep(loginAt, o)) == IssuedDigest(cfg, email, otp, issuedAt)
    ensures AcceptedAt(cfg, email, otp, issuedAt, loginAt)
  {
    var clock := ConstantClock(loginAt);
    assert clock[o] == loginAt;
    assert Candidate(cfg, email, otp, clock, o) == IssuedDigest(cfg, email, otp, issuedAt);
    FirstMatchIsFirst(cfg, email, otp, IssuedDigest(cfg, email, otp, issuedAt), clock, 0);
  }

  /** The offset at which a login at step index `a` meets the step `b + 4`
      mixed in at issue, when (a - b) mod 8 is at most 4. */
  lemma AliasOffset(a: int, b: int) returns (o: nat)
    requires (a - b) % 8 <= 4
    ensures o <= 4 && (a + o) % 8 == (b + 4) % 8
  {
    o := 4 - (a - b) % 8;
  }

  /** As written, if the keyed hash separates time bytes, a match at offset
      `o` means step indices k' + o and k + 4 agree modulo 8. */
  lemma LowByteMatchAligns(cfg: OtpConfig, email: Str, otp: Str, issuedAt: Int64, loginAt: Int64, o: nat)
    requires cfg.encoding == LowByteOnly
    requires SeparatesTimes(cfg, email, otp)
    requires o < EXPR_OFF
    requires HashOtp(cfg, email, otp, TimeStep(loginAt, o)) == IssuedDigest(cfg, email, otp, issuedAt)
    ensures (BucketIndex(loginAt) + o) % 8 == (BucketIndex(issuedAt) + 4) % 8
  {
    var s1, s2 := TimeStep(loginAt, o), TimeStep(issuedAt, EXPR_OFF - 1);
    assert HashOtp(cfg, email, otp, s1) == HashOtp(cfg, email, otp, s2);
    SeparatedSteps(cfg, email, otp, s1, s2);
    assert TimeBytes(LowByteOnly, s1)[0] == TimeBytes(LowByteOnly, s2)[0];
    StepByteAlias(BucketIndex(loginAt) + o, BucketIndex(issuedAt) + 4);
  }

  /** Solving k' + o = k + 4 (mod 8) for the residue of k' - k. */
  lemma ResidueOfOffset(a: int, b: int, o: int)
    requires 0 <= o <= 4
    requires (a + o) % 8 == (b + 4) % 8
    ensures (a - b) % 8 == 4 - o
  {
  }

  /** An accepted login matched at some offset of the loop. */
  lemma AcceptedOffset(cfg: OtpConfig, email: Str, otp: Str, issuedAt: Int64, loginAt: Int64) returns (o: nat)
    requires AcceptedAt(cfg, email, otp, issuedAt, loginAt)
    ensures o < EXPR_OFF
    ensures HashOtp(cfg, email, otp, TimeStep(loginAt, o)) == IssuedDigest(cfg, email, otp, issuedAt)
  {
    var clock, expected := ConstantClock(loginAt), IssuedDigest(cfg, email, otp, issuedAt);
    o := FirstMatch(cfg, email, otp, expected, clock, 0).value;
    assert Candidate(cfg, email, otp, clock, o) == expected;
  }

  /** As written, if the keyed hash separates time bytes, an accepted login
      has step index k' with (k' - k) mod 8 in 0..4. */
  lemma LowByteAcceptedResidue(cfg: OtpConfig, email: Str, otp: Str, issuedAt: Int64, loginAt: Int64)
    requires cfg.encoding == LowByteOnly
    requires SeparatesTimes(cfg, email, otp)
    requires AcceptedAt(cfg, email, otp, issuedAt, loginAt)
    ensures (BucketIndex(loginAt) - BucketIndex(issuedAt)) % 8 <= 4
  {
    var o := AcceptedOffset(cfg, email, otp, issuedAt, loginAt);
    LowByteMatchAligns(cfg, email, otp, issuedAt, loginAt, o);
    ResidueOfOffset(BucketIndex(loginAt), BucketIndex(issuedAt), o);
  }

  /** The as-written acceptance window: given that the keyed hash separates
      time bytes, a hash issued at step index k is accepted at step index k'
      exactly when (k' - k) mod 8 is in 0..4. */
  lemma LowByteWindow(cfg: OtpConfig, email: Str, otp: Str, issuedAt: Int64, loginAt: Int64)
    requires cfg.encoding == LowByteOnly
    requires SeparatesTimes(cfg, email, otp)
    ensures AcceptedAt(cfg, email, otp, issuedAt, loginAt)
            <==> (BucketIndex(loginAt) - BucketIndex(issuedAt)) % 8 <= 4
  {
    if AcceptedAt(cfg, email, otp, issuedAt, loginAt) {
      LowByteAcceptedResidue(cfg, email, otp, issuedAt, loginAt);
    } else if (BucketIndex(loginAt) - BucketIndex(issuedAt)) % 8 <= 4 {
      LowByteAliasAccepts(cfg, email, otp, issuedAt, loginAt);
    }
  }

  /** Within the intended five minutes: a login in the issuing step or one of
      the next four accepts the hash. */
  lemma AcceptedWithinFiveSteps(cfg: OtpConfig, email: Str, otp: Str, issuedAt: Int64, loginAt: Int64)
    requires cfg.encoding == LowByteOnly
    requires BucketIndex(issuedAt) <= BucketIndex(loginAt) <= BucketIndex(issuedAt) + 4
    ensures AcceptedAt(cfg, email, otp, issuedAt, loginAt)
  {
    LowByteAliasAccepts(cfg, email, otp, issuedAt, loginAt);
  }

  /** As written, the hash is accepted again eight steps after issue. */
  lemma LowByteAcceptsEightStepsLater(cfg: OtpConfig, email: Str, otp: Str, issuedAt: Int64, loginAt: Int64)
    requires cfg.encoding == LowByteOnly
    requires BucketIndex(loginAt) == BucketIndex(issuedAt) + 8
    ensures AcceptedAt(cfg, email, otp, issuedAt, loginAt)
  {
    assert (BucketIndex(loginAt) - BucketIndex(issuedAt)) % 8 == 0;
    LowByteAliasAccepts(cfg, email, otp, issuedAt, loginAt);
  }

  /** As written, five to seven steps after issue the hash is rejected, given
      that the keyed hash separates time bytes. */
  lemma LowByteRejectsFiveToSevenStepsLater(cfg: OtpConfig, email: Str, otp: Str, issuedAt: Int64, loginAt: Int64)
    requires cfg.encoding == LowByteOnly
    requires SeparatesTimes(cfg, email, otp)
    requires BucketIndex(issuedAt) + 5 <= BucketIndex(loginAt) <= BucketIndex(issuedAt) + 7
    ensures !AcceptedAt(cfg, email, otp, issuedAt, loginAt)
  {
    assert (BucketIndex(loginAt) - BucketIndex(issuedAt)) % 8 > 4;
    if AcceptedAt(cfg, email, otp, issuedAt, loginAt) {
      LowByteAcceptedResidue(cfg, email, otp, issuedAt, loginAt);
    }
  }

  /** Clock readings for which no step arithmetic wraps (until about the year
      146 million). */
  predicate SaneClock(now: Int64) {
    0 <= now < 0x4000_0000_0000_0000
  }

  /** For sane clocks the steps the loop and the issuer compute are exact, so
      they agree exactly when the step indices plus offsets do. */
  lemma SaneSteps(issuedAt: Int64, loginAt: Int64, o: nat)
    requires SaneClock(issuedAt) && SaneClock(loginAt) && o < EXPR_OFF
    ensures TimeStep(loginAt, o) == TimeStep(issuedAt, EXPR_OFF - 1)
            <==> BucketIndex(loginAt) + o == BucketIndex(issuedAt) + 4
  {
    assert NoOverflow(issuedAt, EXPR_OFF - 1);
    assert NoOverflow(loginAt, o);
  }

  /** Corrected: with the full step mixed in, and given that the keyed hash
      separates time encodings, a hash issued at step index k is accepted at
      step index k' exactly when k <= k' <= k + 4. */
  lemma FullWidthWindow(cfg: OtpConfig, email: Str, otp: Str, issuedAt: Int64, loginAt: Int64)
    requires cfg.encoding == FullWidth
    requires SeparatesTimes(cfg, email, otp)
    requires SaneClock(issuedAt) && SaneClock(loginAt)
    ensures AcceptedAt(cfg, email, otp, issuedAt, loginAt)
            <==> BucketIndex(issuedAt) <= BucketIndex(loginAt) <= BucketIndex(issuedAt) + 4
  {
    var k, k' := BucketIndex(issuedAt), BucketIndex(loginAt);
    if k <= k' <= k + 4 {
      var o := k + 4 - k';
      SaneSteps(issuedAt, loginAt, o);
      MatchAccepts(cfg, email, otp, issuedAt, loginAt, o);
    } else if AcceptedAt(cfg, email, otp, issuedAt, loginAt) {
      var o := AcceptedOffset(cfg, email, otp, issuedAt, loginAt);
      SeparatedSteps(cfg, email, otp, TimeStep(loginAt, o), TimeStep(issuedAt, EXPR_OFF - 1));
      SaneSteps(issuedAt, loginAt, o);
    }
  }

  /** `generateRandomString(length, charset)`: `picks` are the successive
      values `rand.Intn(len(charset))` returns, each below the charset size. */
  method GenerateRandomString(length: nat, charset: Str, picks: seq<nat>) returns (s: Str)
    requires |picks| == length
    requires forall i | 0 <= i < length :: picks[i] < |charset|
    ensures |s| == length
    ensures forall i | 0 <= i < length :: s[i] == charset[picks[i]]
    ensures forall i | 0 <= i < length :: s[i] in charset
  {
    s := [];
    for i := 0 to length
      invariant |s| == i
      invariant forall j | 0 <= j < i :: s[j] == charset[picks[j]]
    {
      s := s + [charset[picks[i]]];
    }
  }

  /** The charset of `generateOtp`, "0123456789". */
  const DIGITS: Str := seq(10, i => 48 + i)

  predicate IsDigit(c: byte) {
    48 <= c <= 57
  }

  /** `generateOtp`: six characters drawn from "0123456789". */
  method GenerateOtp(picks: seq<nat>) returns (otp: Str)
    requires |picks| == OTP_LENGTH
    requires forall i | 0 <= i < OTP_LENGTH :: picks[i] < 10
    ensures |otp| == OTP_LENGTH
    ensures forall i | 0 <= i < |otp| :: IsDigit(otp[i])
    ensures forall i | 0 <= i < |otp| :: otp[i] == 48 + picks[i]
  {
    otp := GenerateRandomString(OTP_LENGTH, DIGITS, picks);
  }
}

=== FILE: sync.dfy ===
/** The sync-state fingerprint of sync.go: every item of a user's inventory is
    serialised, in the order the list holds them, as its ID bytes followed by
    its last-modified time in epoch milliseconds (eight big-endian bytes), and
    the buffer is hashed with 32-bit FNV-1a. */
module Sync {
  import opened Wrappers
  import opened Bytes
  import Fnv

  /** A row of the generated `db.Useritem` type. Only two columns are named by
      the hashing code; the rest (owner, quantity, price, expiration, ...) are
      kept opaque, keyed by column name. `id` is the fixed-size binary
      encoding of the item's identifier. */
  datatype Useritem = Useritem(id: seq<byte>, lastModified: Int64, columns: map<Str, Str>)

  datatype SyncState = SyncState(items: seq<Useritem>)

  /** The part of an item the fingerprint reads. */
  datatype ItemKey = ItemKey(id: seq<byte>, millis: Int64)

  /** An error of `binary.Write`; it is only raised for data that is not of a
      fixed size, which no item is. */
  datatype SyncError = EncodingFailed

  function KeyOf(item: Useritem): ItemKey {
    ItemKey(item.id, item.lastModified)
  }

  function Keys(items: seq<Useritem>): (ks: seq<ItemKey>)
    ensures |ks| == |items|
    ensures forall i | 0 <= i < |items| :: ks[i] == KeyOf(items[i])
  {
    if |items| == 0 then [] else [KeyOf(items[0])] + Keys(items[1..])
  }

  /** Every ID has the same encoded width `w`, as a fixed-size Go type does. */
  predicate FixedWidth(items: seq<Useritem>, w: nat) {
    forall i | 0 <= i < |items| :: |items[i].id| == w
  }

  /** The two `binary.Write` calls for one item. */
  function EncodeItem(item: Useritem): seq<byte> {
    item.id + Int64ToBytes(item.lastModified)
  }

  /** The buffer built by the loop of `_computeSyncStateHash`. */
  function Serialise(items: seq<Useritem>): seq<byte> {
    if |items| == 0 then [] else EncodeItem(items[0]) + Serialise(items[1..])
  }

  /** The fingerprint as a function of the item list. */
  function StateHash(items: seq<Useritem>): bv32 {
    Fnv.Sum32(Serialise(items))
  }

  /** Appending an item appends its encoding to the buffer. */
  lemma {:induction false} SerialiseSnoc(items: seq<Useritem>, x: Useritem)
    ensures Serialise(items + [x]) == Serialise(items) + EncodeItem(x)
  {
    if |items| == 0 {
      assert items + [x] == [x];
    } else {
      assert (items + [x])[1..] == items[1..] + [x];
      SerialiseSnoc(items[1..], x);
    }
  }

  /** `_computeSyncStateHash`: builds the buffer item by item, then feeds it to
      FNV-1a byte by byte. The error result is never produced. */
  method ComputeSyncStateHash(state: SyncState) returns (hash: bv32, err: Option<SyncError>)
    ensures err == None
    ensures hash == Fnv.Sum32(Serialise(state.items))
    ensures |state.items| == 0 ==> hash == 2166136261
  {
    var buf := WriteItems(state.items);
    hash := Fnv.Hash32(buf);
    err := None;
  }

  /** The serialisation loop: each item's ID bytes, then its timestamp as
      eight big-endian bytes, appended to the buffer in list order. */
  method WriteItems(items: seq<Useritem>) returns (buf: seq<byte>)
    ensures buf == Serialise(items)
    ensures |items| == 0 ==> buf == []
  {
    buf := [];
    for i := 0 to |items|
      invariant buf == Serialise(items[..i])
    {
      SerialiseSnoc(items[..i], items[i]);
      assert items[..i + 1] == items[..i] + [items[i]];
      buf := buf + items[i].id;
      buf := buf + Int64ToBytes(items[i].lastModified);
    }
    assert items[..|items|] == items;
  }

  /** The buffer holds `idSize + 8` bytes per item. */
  lemma {:induction false} SerialiseLength(items: seq<Useritem>, w: nat)
    requires FixedWidth(items, w)
    ensures |Serialise(items)| == |items| * (w + 8)
  {
    if |items| > 0 {
      SerialiseLength(items[1..], w);
      assert |items| * (w + 8) == (w + 8) + (|items| - 1) * (w + 8);
    }
  }

  /** Hashing one more item continues the fold from the previous fingerprint
      over that item's encoding. */
  lemma StateHashSnoc(items: seq<Useritem>, x: Useritem)
    ensures StateHash(items + [x]) == Fnv.Fold(StateHash(items), EncodeItem(x))
  {
    SerialiseSnoc(items, x);
    Fnv.FoldAppend(Fnv.OFFSET_BASIS, Serialise(items), EncodeItem(x));
  }

  /** Only IDs and last-modified times enter the fingerprint: lists that agree
      on those, item by item, hash alike whatever their other columns hold. */
  lemma {:induction false} SerialiseOnlyKeys(xs: seq<Useritem>, ys: seq<Useritem>)
    requires Keys(xs) == Keys(ys)
    ensures Serialise(xs) == Serialise(ys)
  {
    if |xs| > 0 {
      assert KeyOf(xs[0]) == KeyOf(ys[0]);
      assert Keys(xs[1..]) == Keys(ys[1..]) by {
        assert Keys(xs[1..]) == Keys(xs)[1..];
        assert Keys(ys[1..]) == Keys(ys)[1..];
      }
      SerialiseOnlyKeys(xs[1..], ys[1..]);
    }
  }

  lemma StateHashOnlyKeys(xs: seq<Useritem>, ys: seq<Useritem>)
    requires Keys(xs) == Keys(ys)
    ensures StateHash(xs) == StateHash(ys)
  {
    SerialiseOnlyKeys(xs, ys);
  }

  /** Reads a buffer back into the keys it was written from, given the ID width. */
  function ParseKeys(bs: seq<byte>, w: nat): Option<seq<ItemKey>>
    decreases |bs|
  {
    if |bs| == 0 then Some([])
    else if |bs| < w + 8 then None
    else
      match ParseKeys(bs[w + 8..], w)
      case None => None
      case Some(rest) => Some([ItemKey(bs[..w], Int64FromBytes(bs[w..w + 8]))] + rest)
  }

  /** The serialisation loses nothing: the (ID, millis) sequence, in order, is
      recovered from the buffer. */
  lemma {:induction false} ParseSerialise(items: seq<Useritem>, w: nat)
    requires FixedWidth(items, w)
    ensures ParseKeys(Serialise(items), w) == Some(Keys(items))
  {
    if |items| > 0 {
      var bs := Serialise(items);
      var e := EncodeItem(items[0]);
      assert bs == e + Serialise(items[1..]);
      assert |e| == w + 8;
      assert bs[w + 8..] == Serialise(items[1..]);
      assert bs[..w] == items[0].id;
      assert bs[w..w + 8] == Int64ToBytes(items[0].lastModified);
      Int64BytesRoundTrip(items[0].lastModified);
      ParseSerialise(items[1..], w);
      assert Keys(items) == [KeyOf(items[0])] + Keys(items[1..]);
    }
  }

  /** Equal buffers come from equal (ID, millis) sequences. */
  lemma SerialiseInjective(xs: seq<Useritem>, ys: seq<Useritem>, w: nat)
    requires FixedWidth(xs, w) && FixedWidth(ys, w)
    requires Serialise(xs) == Serialise(ys)
    ensures Keys(xs) == Keys(ys)
  {
    ParseSerialise(xs, w);
    ParseSerialise(ys, w);
  }

  /** The traversal follows the list order, so swapping two items whose keys
      differ changes the bytes that are hashed. */
  lemma SerialiseOrderSensitive(a: Useritem, b: Useritem, w: nat)
    requires |a.id| == w && |b.id| == w
    requires KeyOf(a) != KeyOf(b)
    ensures Serialise([a, b]) != Serialise([b, a])
  {
    if Serialise([a, b]) == Serialise([b, a]) {
      SerialiseInjective([a, b], [b, a], w);
    }
  }

  /** The 32-bit fingerprint itself, not only its input, can change when two
      items swap: items with empty IDs and times 0 and 1, whatever their
      other columns, hash to different values in the two orders. */
  lemma SwapChangesStateHash(a: Useritem, b: Useritem)
    requires a.id == [] && a.lastModified == 0
    requires b.id == [] && b.lastModified == 1
    ensures StateHash([a, b]) == 0x6869_1772 && StateHash([b, a]) == 0x4820_5812
  {
    var zero, one := Int64ToBytes(0), Int64ToBytes(1);
    SwapBuffers(a, b);
    Fnv.FoldAppend(Fnv.OFFSET_BASIS, zero, one);
    Fnv.FoldAppend(Fnv.OFFSET_BASIS, one, zero);
    SmallTimes();
    ZeroFirstFolds();
    OneFirstFolds();
  }

  /** The big-endian bytes of the times 0 and 1. */
  lemma SmallTimes()
    ensures Int64ToBytes(0) == [0, 0, 0, 0, 0, 0, 0, 0]
    ensures Int64ToBytes(1) == [0, 0, 0, 0, 0, 0, 0, 1]
  {
  }

  /** FNV-1a states over the times 0 then 1, one eight-byte block at a time. */
  lemma ZeroFirstFolds()
    ensures Fnv.Fold(Fnv.OFFSET_BASIS, [0, 0, 0, 0, 0, 0, 0, 0]) == 2615243109
    ensures Fnv.Fold(2615243109, [0, 0, 0, 0, 0, 0, 0, 1]) == 1751717746
  {
  }

  /** FNV-1a states over the times 1 then 0. */
  lemma OneFirstFolds()
    ensures Fnv.Fold(Fnv.OFFSET_BASIS, [0, 0, 0, 0, 0, 0, 0, 1]) == 2598465490
    ensures Fnv.Fold(2598465490, [0, 0, 0, 0, 0, 0, 0, 0]) == 1210079250
  {
  }

  /** The buffers of the two orders: eight bytes of time per item. */
  lemma SwapBuffers(a: Useritem, b: Useritem)
    requires a.id == [] && a.lastModified == 0
    requires b.id == [] && b.lastModified == 1
    ensures Serialise([a, b]) == Int64ToBytes(0) + Int64ToBytes(1)
    ensures Serialise([b, a]) == Int64ToBytes(1) + Int64ToBytes(0)
  {
    assert EncodeItem(a) == Int64ToBytes(0) && EncodeItem(b) == Int64ToBytes(1);
    assert [a, b][1..] == [b] && [b, a][1..] == [a];
    assert Serialise([a]) == EncodeItem(a) + Serialise([]);
    assert Serialise([b]) == EncodeItem(b) + Serialise([]);
  }
}

=== FILE: users.dfy ===
/** The user logic of users.go: resolving a user by e-mail (creating one on
    first login), building the partial update of `handleUpdateMe`, and the
    profile-picture upload of `uploadUserImage` with its S3 object key. The
    database and S3 are collaborators whose answers are inputs. */
module Users {
  import opened Wrappers
  import opened Bytes
  import Hex

  /** A `uuid.UUID`: sixteen bytes. */
  type Uuid = s: seq<byte> | |s| == 16 witness seq(16, i => 0)

  const DASH: byte := 45
  const DOT: byte := 46
  const SLASH: byte := 47

  /** `uuid.UUID.String()`: lower-case hex in groups of 8-4-4-4-12 digits. */
  function UuidString(u: Uuid): (s: Str)
    ensures |s| == 36
    ensures s[8] == DASH && s[13] == DASH && s[18] == DASH && s[23] == DASH
    ensures forall i | 0 <= i < 36 && i != 8 && i != 13 && i != 18 && i != 23 :: Hex.IsLowerHexChar(s[i])
  {
    Hex.Encode(u[..4]) + [DASH] + Hex.Encode(u[4..6]) + [DASH] + Hex.Encode(u[6..8])
      + [DASH] + Hex.Encode(u[8..10]) + [DASH] + Hex.Encode(u[10..])
  }

  /** Distinct UUIDs have distinct string forms. */
  lemma UuidStringInjective(u1: Uuid, u2: Uuid)
    requires UuidString(u1) == UuidString(u2)
    ensures u1 == u2
  {
    var s1, s2 := UuidString(u1), UuidString(u2);
    assert Hex.Encode(u1[..4]) == s1[..8] == s2[..8] == Hex.Encode(u2[..4]);
    assert Hex.Encode(u1[4..6]) == s1[9..13] == s2[9..13] == Hex.Encode(u2[4..6]);
    assert Hex.Encode(u1[6..8]) == s1[14..18] == s2[14..18] == Hex.Encode(u2[6..8]);
    assert Hex.Encode(u1[8..10]) == s1[19..23] == s2[19..23] == Hex.Encode(u2[8..10]);
    assert Hex.Encode(u1[10..]) == s1[24..] == s2[24..] == Hex.Encode(u2[10..]);
    Hex.EncodeInjective(u1[..4], u2[..4]);
    Hex.EncodeInjective(u1[4..6], u2[4..6]);
    Hex.EncodeInjective(u1[6..8], u2[6..8]);
    Hex.EncodeInjective(u1[8..10], u2[8..10]);
    Hex.EncodeInjective(u1[10..], u2[10..]);
    assert u1 == u1[..4] + u1[4..6] + u1[6..8] + u1[8..10] + u1[10..];
    assert u2 == u2[..4] + u2[4..6] + u2[6..8] + u2[8..10] + u2[10..];
  }

  /** A nullable text column (`pgtype.Text`); the zero value is SQL NULL. */
  datatype NullText = NullText(str: Str, valid: bool)

  /** A nullable `measure_type` enum column (`db.NullMeasureType`). */
  datatype NullMeasure = NullMeasure(measure: Str, valid: bool)

  const NULL_TEXT: NullText := NullText([], false)
  const NULL_MEASURE: NullMeasure := NullMeasure([], false)

  /** A row of the users table (`db.User`). */
  datatype User = User(id: Uuid, email: Str, name: Str, prefMeasure: Str, profilePic: NullText)

  datatype DbError = NoRows | QueryFailed

  /** The users table keyed by e-mail, and whether lookups and inserts fail for
      reasons other than a missing row (connection loss, a constraint the
      schema enforces, ...). */
  datatype Db = Db(users: map<Str, User>, lookupFails: bool, createFails: bool)

  /** `queries.GetUser` by e-mail. */
  function GetUserByEmail(db: Db, email: Str): (r: Result<User, DbError>)
    ensures r.Success? <==> !db.lookupFails && email in db.users
    ensures r.Success? ==> r.value == db.users[email]
  {
    if db.lookupFails then Failure(QueryFailed)
    else if email in db.users then Success(db.users[email])
    else Failure(NoRows)
  }

  datatype CreateUserParams = CreateUserParams(email: Str, name: Str, prefMeasure: Str)

  /** The outcome of a store operation: the user (or error) and the new store. */
  datatype Resolution = Resolution(user: Result<User, DbError>, db: Db)

  /** `queries.CreateUser`: inserts a row with the identifier the database
      generates (`newId`) and no profile picture. */
  function CreateUser(db: Db, params: CreateUserParams, newId: Uuid): (r: Resolution)
    ensures r.user.Success? <==> !db.createFails
    ensures r.user.Failure? ==> r.db == db
    ensures r.user.Success? ==>
              && r.user.value == User(newId, params.email, params.name, params.prefMeasure, NULL_TEXT)
              && r.db == db.(users := db.users[params.email := r.user.value])
  {
    if db.createFails then Resolution(Failure(QueryFailed), db)
    else
      var u := User(newId, params.email, params.name, params.prefMeasure, NULL_TEXT);
      Resolution(Success(u), db.(users := db.users[params.email := u]))
  }

  /** `createOrGetNewUser`: the user with this e-mail if the lookup succeeds;
      otherwise a new user named after the e-mail with metric preferences, or
      the error when creating it fails. */
  function CreateOrGetNewUser(db: Db, email: Str, newId: Uuid): (r: Resolution)
    ensures GetUserByEmail(db, email).Success? ==>
              r.user == Success(db.users[email]) && r.db == db
    ensures GetUserByEmail(db, email).Failure? && !db.createFails ==>
              && r.user.Success?
              && r.user.value.id == newId
              && r.user.value.email == email
              && r.user.value.name == email
              && r.user.value.prefMeasure == Ascii("metric")
              && r.db.users == db.users[email := r.user.value]
    ensures GetUserByEmail(db, email).Failure? && db.createFails ==>
              r.user.Failure? && r.db == db
    ensures r.db.lookupFails == db.lookupFails && r.db.createFails == db.createFails
  {
    match GetUserByEmail(db, email)
    case Success(u) => Resolution(Success(u), db)
    case Failure(_) => CreateUser(db, CreateUserParams(email, email, Ascii("metric")), newId)
  }

  /** Resolving the same e-mail again, after a resolution succeeded and with
      lookups working, returns the same user and creates nothing. */
  lemma CreateOrGetIdempotent(db: Db, email: Str, id1: Uuid, id2: Uuid)
    requires !db.lookupFails
    requires CreateOrGetNewUser(db, email, id1).user.Success?
    ensures var r1 := CreateOrGetNewUser(db, email, id1);
            var r2 := CreateOrGetNewUser(r1.db, email, id2);
            r2.user == r1.user && r2.db == r1.db
  {
  }

  /** The JSON body of `updateMe`; an absent field decodes as "". */
  datatype UpdateUserRequest = UpdateUserRequest(email: Str, name: Str, prefMeasure: Str)

  /** `db.UpdateUserParams`: a NULL column is left unchanged by the update. */
  datatype UpdateUserParams = UpdateUserParams(id: Uuid, email: NullText, name: NullText,
                                               prefMeasure: NullMeasure, profilePic: NullText)

  function TextIfGiven(s: Str): NullText {
    if s != [] then NullText(s, true) else NULL_TEXT
  }

  /** The parameters `handleUpdateMe` builds: the caller's ID, and each field
      set exactly when the request carries a non-empty value for it. */
  function UpdateParamsFor(id: Uuid, req: UpdateUserRequest): (p: UpdateUserParams)
    ensures p.id == id
    ensures p.email.valid <==> req.email != []
    ensures p.name.valid <==> req.name != []
    ensures p.prefMeasure.valid <==> req.prefMeasure != []
    ensures p.email == (if p.email.valid then NullText(req.email, true) else NULL_TEXT)
    ensures p.name == (if p.name.valid then NullText(req.name, true) else NULL_TEXT)
    ensures p.prefMeasure == (if p.prefMeasure.valid then NullMeasure(req.prefMeasure, true) else NULL_MEASURE)
    ensures p.profilePic == NULL_TEXT
  {
    UpdateUserParams(id, TextIfGiven(req.email), TextIfGiven(req.name),
                     if req.prefMeasure != [] then NullMeasure(req.prefMeasure, true) else NULL_MEASURE,
                     NULL_TEXT)
  }

  /** The request a set of update parameters says was made (NULL read as ""). */
  function RequestOf(p: UpdateUserParams): UpdateUserRequest {
    UpdateUserRequest(if p.email.valid then p.email.str else [],
                      if p.name.valid then p.name.str else [],
                      if p.prefMeasure.valid then p.prefMeasure.measure else [])
  }

  /** No request field is lost or invented by the construction. */
  lemma UpdateParamsRoundTrip(id: Uuid, req: UpdateUserRequest)
    ensures RequestOf(UpdateParamsFor(id, req)) == req
  {
  }

  /** Go's `path.Ext` scan from index `j` down: the suffix starting at the
      last '.' of the final '/'-separated element, or "" if it has none. */
  function ExtBefore(path: Str, j: nat): (ext: Str)
    requires j <= |path|
    requires forall i | j <= i < |path| :: path[i] != DOT && path[i] != SLASH
    ensures |ext| <= |path| && ext == path[|path| - |ext|..]
    ensures ext != [] ==> ext[0] == DOT
    ensures forall i | |path| - |ext| < i < |path| :: path[i] != DOT && path[i] != SLASH
    ensures ext == [] ==> forall i | 0 <= i < |path| && path[i] == DOT :: SLASH in path[i + 1..]
    decreases j
  {
    if j == 0 then []
    else if path[j - 1] == SLASH then
      assert forall i | 0 <= i < |path| && path[i] == DOT :: path[j - 1] in path[i + 1..] by {
        forall i | 0 <= i < |path| && path[i] == DOT ensures path[j - 1] in path[i + 1..] {
          assert path[i + 1..][j - 1 - (i + 1)] == path[j - 1];
        }
      }
      []
    else if path[j - 1] == DOT then path[j - 1..]
    else ExtBefore(path, j - 1)
  }

  /** `path.Ext`. */
  function PathExt(path: Str): (ext: Str)
    ensures |ext| <= |path| && ext == path[|path| - |ext|..]
    ensures ext != [] ==> ext[0] == DOT
    ensures forall i | |path| - |ext| < i < |path| :: path[i] != DOT && path[i] != SLASH
    ensures ext == [] ==> forall i | 0 <= i < |path| && path[i] == DOT :: SLASH in path[i + 1..]
  {
    ExtBefore(path, |path|)
  }

  /** The S3 key of a user's picture: "users/" + UUID string + extension. */
  function ImageKey(id: Uuid, filename: Str): (key: Str)
    ensures |key| >= 42
    ensures key[..6] == Ascii("users/")
    ensures key[6..42] == UuidString(id)
    ensures key[42..] == PathExt(filename)
  {
    Ascii("users/") + UuidString(id) + PathExt(filename)
  }

  /** Different users never share a picture key, whatever the file names. */
  lemma ImageKeyIdentifiesUser(u1: Uuid, f1: Str, u2: Uuid, f2: Str)
    requires ImageKey(u1, f1) == ImageKey(u2, f2)
    ensures u1 == u2 && PathExt(f1) == PathExt(f2)
  {
    UuidStringInjective(u1, u2);
  }

  /** The uploaded file's header (`*multipart.FileHeader`). */
  datatype FileHeader = FileHeader(filename: Str, contentType: Str)

  /** What `uploadUserImage` does that can be observed, in order. */
  datatype UploadEffect =
    | RespondError(status: int)
    | DeleteObject(key: Str)
    | SaveProfilePic(params: UpdateUserParams)
    | PutObject(key: Str, contentType: Str)
    | RespondImageKey(key: Str)
    | Panic

  /** The answers of the handler's collaborators: the "image" form file (None
      when reading it fails), the caller's ID from the token claims (None when
      it does not parse), the stored user (None when the query fails), and
      whether the S3 delete, the database update and the S3 upload succeed. */
  datatype UploadEnv = UploadEnv(form: Option<FileHeader>, userId: Option<Uuid>, stored: Option<User>,
                                 deleteOk: bool, updateOk: bool, uploadOk: bool)

  /** The picture the handler sees: a failed query leaves the zero `db.User`,
      whose `ProfilePic` is NULL. */
  function StoredPic(env: UploadEnv): NullText {
    if env.stored.Some? then env.stored.value.profilePic else NULL_TEXT
  }

  /** users.go:64-70: the old picture is deleted when the stored user has one. */
  function DeleteStep(env: UploadEnv): (effects: seq<UploadEffect>)
    ensures Deletes(effects) <==> StoredPic(env).valid
    ensures Deletes(effects) ==> effects == [DeleteObject(StoredPic(env).str)]
    ensures !Writes(effects) && Panic !in effects
  {
    if StoredPic(env).valid then
      var effects := [DeleteObject(StoredPic(env).str)];
      assert effects[0].DeleteObject?;
      effects
    else []
  }

  /** users.go:80-83: the update that sets only the picture key. */
  function KeyParams(uid: Uuid, key: Str): (p: UpdateUserParams)
    ensures p.id == uid && p.profilePic == NullText(key, true)
    ensures !p.email.valid && !p.name.valid && !p.prefMeasure.valid
  {
    UpdateUserParams(uid, NULL_TEXT, NULL_TEXT, NULL_MEASURE, NullText(key, true))
  }

  /** users.go:72-97: save the new key in the database, then upload the
      object, then answer with the key. */
  function ReplaceSteps(env: UploadEnv, uid: Uuid, key: Str, contentType: Str): (effects: seq<UploadEffect>)
    ensures !Deletes(effects) && Panic !in effects
    ensures forall i | 0 <= i < |effects| && effects[i].PutObject? ::
              && effects[i].key == key
              && 0 < i && effects[i - 1].SaveProfilePic?
              && effects[i - 1].params.profilePic == NullText(key, true)
  {
    var save := [SaveProfilePic(KeyParams(uid, key))];
    var put := PutObject(key, contentType);
    if !env.updateOk then save
    else
      var last := if env.uploadOk then RespondImageKey(key) else RespondError(500);
      var effects := save + [put, last];
      assert effects == [save[0], put, last];
      effects
  }

  /** users.go:52-97, once the form file was read and its header is `h`. */
  function UploadRest(env: UploadEnv, h: FileHeader): seq<UploadEffect> {
    match env.userId
    case None => [RespondError(401)]
    case Some(uid) =>
      DeleteStep(env) +
        if StoredPic(env).valid && !env.deleteOk then []
        else ReplaceSteps(env, uid, ImageKey(uid, h.filename), h.contentType)
  }

  /** `uploadUserImage` as written: after a failed `FormFile` it answers 400
      but does not return. `FormFile` then returned a nil `multipart.File`,
      and `defer file.Close()` evaluates a method of that nil interface, which
      panics before anything else happens. With an image it is the corrected
      handler. */
  function UploadUserImageAsWritten(env: UploadEnv): (effects: seq<UploadEffect>)
    ensures env.form.None? ==> 0 < |effects| && effects[0] == RespondError(400) && Panic in effects
    ensures env.form.None? ==> !Deletes(effects) && !Writes(effects)
    ensures env.form.Some? ==> effects == UploadUserImage(env)
  {
    if env.form.None? then
      var effects := [RespondError(400), Panic];
      assert effects[1] == Panic;
      effects
    else UploadRest(env, env.form.value)
  }

  predicate Deletes(effects: seq<UploadEffect>) {
    exists i | 0 <= i < |effects| :: effects[i].DeleteObject?
  }

  predicate Writes(effects: seq<UploadEffect>) {
    exists i | 0 <= i < |effects| :: effects[i].SaveProfilePic? || effects[i].PutObject?
  }

  /** As written, a request without an image gets the 400 answer and then a
      panic in place of the corrected handler's clean return; the stored
      picture and the database are left alone. */
  lemma MissingImagePanics(env: UploadEnv)
    requires env.form.None?
    ensures UploadUserImageAsWritten(env) == UploadUserImage(env) + [Panic]
    ensures !Deletes(UploadUserImageAsWritten(env)) && !Writes(UploadUserImageAsWritten(env))
  {
  }

  /** `uploadUserImage` with the missing `return` after the 400 answer. The
      old picture is deleted only when the stored user has one, nothing is
      written after a failed delete, the new key is saved before the object
      is uploaded, and a missing image touches nothing. */
  function UploadUserImage(env: UploadEnv): (effects: seq<UploadEffect>)
    ensures env.form.None? ==> effects == [RespondError(400)]
    ensures Deletes(effects) <==> env.form.Some? && env.userId.Some? && StoredPic(env).valid
    ensures Deletes(effects) ==> effects[0] == DeleteObject(StoredPic(env).str)
    ensures StoredPic(env).valid && !env.deleteOk ==> !Writes(effects)
    ensures forall i | 0 <= i < |effects| && effects[i].PutObject? ::
              && env.form.Some? && env.userId.Some?
              && effects[i].key == ImageKey(env.userId.value, env.form.value.filename)
              && 0 < i && effects[i - 1].SaveProfilePic?
              && effects[i - 1].params.profilePic == NullText(effects[i].key, true)
    ensures Panic !in effects
    ensures env.form.Some? ==> Progresses(env, env.form.value, effects)
    ensures Framed(env, effects)
  {
    if env.form.None? then [RespondError(400)]
    else
      UploadRestGuards(env, env.form.value);
      UploadRestProgress(env, env.form.value);
      UploadRestFramed(env, env.form.value);
      UploadRest(env, env.form.value)
  }

  predicate Uploads(effects: seq<UploadEffect>) {
    exists i | 0 <= i < |effects| :: effects[i].PutObject?
  }

  /** What the handler does once the image `h` was received: a bad token is
      answered 401; a failed delete ends the request; otherwise the key is
      saved, and only a successful save is followed by the upload and the
      answer with the key, or a 500 when the upload fails. */
  predicate Progresses(env: UploadEnv, h: FileHeader, effects: seq<UploadEffect>) {
    && (env.userId.None? ==> effects == [RespondError(401)])
    && (env.userId.Some? && StoredPic(env).valid && !env.deleteOk
        ==> effects == [DeleteObject(StoredPic(env).str)])
    && (env.userId.Some? && !(StoredPic(env).valid && !env.deleteOk) ==>
          var key := ImageKey(env.userId.value, h.filename);
          && SaveProfilePic(KeyParams(env.userId.value, key)) in effects
          && (!env.updateOk ==> !Uploads(effects) && effects[|effects| - 1].SaveProfilePic?)
          && (env.updateOk ==> PutObject(key, h.contentType) in effects)
          && (env.updateOk ==> effects[|effects| - 1]
                               == if env.uploadOk then RespondImageKey(key) else RespondError(500)))
  }

  /** Nothing else happens: the only object ever deleted is the stored
      picture, as the first effect, and an answer is always the last effect,
      so the handler answers at most once. */
  predicate Framed(env: UploadEnv, effects: seq<UploadEffect>) {
    && (forall i | 0 <= i < |effects| && effects[i].DeleteObject? ::
          i == 0 && effects[i] == DeleteObject(StoredPic(env).str))
    && (forall i | 0 <= i < |effects| - 1 :: !effects[i].RespondError? && !effects[i].RespondImageKey?)
  }

  lemma UploadRestFramed(env: UploadEnv, h: FileHeader)
    requires env.form == Some(h)
    ensures Framed(env, UploadRest(env, h))
  {
    if env.userId.Some? {
      var uid := env.userId.value;
      var d := DeleteStep(env);
      if StoredPic(env).valid && !env.deleteOk {
        assert UploadRest(env, h) == d;
      } else {
        var rest := ReplaceSteps(env, uid, ImageKey(uid, h.filename), h.contentType);
        assert UploadRest(env, h) == d + rest;
        ReplaceAnswersLast(env, uid, ImageKey(uid, h.filename), h.contentType);
        FramedConcat(env, d, rest);
      }
    }
  }

  /** The save, upload and answer delete nothing and answer only last. */
  lemma ReplaceAnswersLast(env: UploadEnv, uid: Uuid, key: Str, ct: Str)
    ensures var rest := ReplaceSteps(env, uid, key, ct);
            && (forall i | 0 <= i < |rest| :: !rest[i].DeleteObject?)
            && (forall i | 0 <= i < |rest| - 1 :: !rest[i].RespondError? && !rest[i].RespondImageKey?)
  {
    var rest := ReplaceSteps(env, uid, key, ct);
    assert |rest| == 1 || rest == [rest[0], rest[1], rest[2]];
  }

  /** An optional delete of the stored picture, followed by steps that delete
      nothing and answer only last, is framed. */
  lemma FramedConcat(env: UploadEnv, d: seq<UploadEffect>, rest: seq<UploadEffect>)
    requires d == [] || d == [DeleteObject(StoredPic(env).str)]
    requires |rest| > 0
    requires forall i | 0 <= i < |rest| :: !rest[i].DeleteObject?
    requires forall i | 0 <= i < |rest| - 1 :: !rest[i].RespondError? && !rest[i].RespondImageKey?
    ensures Framed(env, d + rest)
  {
    forall i | |d| <= i < |d + rest| ensures (d + rest)[i] == rest[i - |d|] { }
  }


  lemma UploadRestProgress(env: UploadEnv, h: FileHeader)
    requires env.form == Some(h)
    ensures Progresses(env, h, UploadRest(env, h))
  {
    if env.userId.Some? && !(StoredPic(env).valid && !env.deleteOk) {
      var uid := env.userId.value;
      var key := ImageKey(uid, h.filename);
      var d := DeleteStep(env);
      var rest := ReplaceSteps(env, uid, key, h.contentType);
      assert UploadRest(env, h) == d + rest;
      if env.updateOk {
        SavedThenUploaded(env, d, rest, key, h.contentType);
      } else {
        SavedOnly(env, d, rest, key);
      }
    } else if env.userId.Some? {
      assert UploadRest(env, h) == DeleteStep(env);
    }
  }

  /** After a successful save: the key is saved, then uploaded, then answered. */
  lemma SavedThenUploaded(env: UploadEnv, d: seq<UploadEffect>, rest: seq<UploadEffect>, key: Str, ct: Str)
    requires env.userId.Some? && env.updateOk && |d| <= 1
    requires rest == ReplaceSteps(env, env.userId.value, key, ct)
    ensures SaveProfilePic(KeyParams(env.userId.value, key)) in d + rest
    ensures PutObject(key, ct) in d + rest
    ensures (d + rest)[|d + rest| - 1] == if env.uploadOk then RespondImageKey(key) else RespondError(500)
  {
    assert (d + rest)[|d|] == rest[0];
    assert (d + rest)[|d| + 1] == rest[1];
  }

  /** After a failed save: the save is the last effect and nothing is uploaded. */
  lemma SavedOnly(env: UploadEnv, d: seq<UploadEffect>, rest: seq<UploadEffect>, key: Str)
    requires env.userId.Some? && !env.updateOk && !Uploads(d)
    requires rest == [SaveProfilePic(KeyParams(env.userId.value, key))]
    ensures SaveProfilePic(KeyParams(env.userId.value, key)) in d + rest
    ensures !Uploads(d + rest) && (d + rest)[|d + rest| - 1].SaveProfilePic?
  {
    assert (d + rest)[|d|] == rest[0];
    forall i | 0 <= i < |d + rest| ensures !(d + rest)[i].PutObject? {
      if i < |d| { assert (d + rest)[i] == d[i]; }
    }
  }

  /** The guards of `UploadUserImage` on the effects of `UploadRest`, once the
      image `h` was received. */
  predicate RestGuarded(env: UploadEnv, h: FileHeader, effects: seq<UploadEffect>) {
    && (Deletes(effects) <==> env.userId.Some? && StoredPic(env).valid)
    && (Deletes(effects) ==> effects[0] == DeleteObject(StoredPic(env).str))
    && (StoredPic(env).valid && !env.deleteOk ==> !Writes(effects))
    && (forall i | 0 <= i < |effects| && effects[i].PutObject? ::
          && env.userId.Some?
          && effects[i].key == ImageKey(env.userId.value, h.filename)
          && 0 < i && effects[i - 1].SaveProfilePic?
          && effects[i - 1].params.profilePic == NullText(effects[i].key, true))
    && Panic !in effects
  }

  lemma UploadRestGuards(env: UploadEnv, h: FileHeader)
    requires env.form == Some(h)
    ensures RestGuarded(env, h, UploadRest(env, h))
  {
    if env.userId.None? {
      assert UploadRest(env, h) == [RespondError(401)];
    } else if StoredPic(env).valid && !env.deleteOk {
      DeleteFailsGuarded(env, h);
    } else {
      ReplaceGuarded(env, h);
    }
  }

  /** A failed delete ends the request: only the delete was attempted. */
  lemma DeleteFailsGuarded(env: UploadEnv, h: FileHeader)
    requires env.form == Some(h) && env.userId.Some?
    requires StoredPic(env).valid && !env.deleteOk
    ensures RestGuarded(env, h, UploadRest(env, h))
  {
    var d := DeleteStep(env);
    assert UploadRest(env, h) == d;
    assert d == [DeleteObject(StoredPic(env).str)];
  }

  /** Otherwise the optional delete is followed by the save and the upload. */
  lemma ReplaceGuarded(env: UploadEnv, h: FileHeader)
    requires env.form == Some(h) && env.userId.Some?
    requires !(StoredPic(env).valid && !env.deleteOk)
    ensures RestGuarded(env, h, UploadRest(env, h))
  {
    var uid := env.userId.value;
    var d := DeleteStep(env);
    var rest := ReplaceSteps(env, uid, ImageKey(uid, h.filename), h.contentType);
    assert UploadRest(env, h) == d + rest;
    ConcatFacts(d, rest);
  }

  lemma ConcatFacts(d: seq<UploadEffect>, rest: seq<UploadEffect>)
    requires |d| <= 1 && !Writes(d) && Panic !in d
    ensures Deletes(d + rest) <==> Deletes(d) || Deletes(rest)
    ensures Writes(d + rest) <==> Writes(rest)
    ensures Panic in d + rest <==> Panic in rest
    ensures forall i | |d| <= i < |d + rest| :: (d + rest)[i] == rest[i - |d|]
    ensures forall i | 0 <= i < |d| :: !(d + rest)[i].PutObject?
  {
    if Deletes(rest) {
      var i :| 0 <= i < |rest| && rest[i].DeleteObject?;
      assert (d + rest)[|d| + i] == rest[i];
    }
    if Deletes(d) {
      assert (d + rest)[0] == d[0];
    }
    if Writes(rest) {
      var i :| 0 <= i < |rest| && (rest[i].SaveProfilePic? || rest[i].PutObject?);
      assert (d + rest)[|d| + i] == rest[i];
    }
  }
}

=== FILE: wrappers.dfy ===
/** Failure-carrying results used throughout the model, standing in for Go's
    `(value, error)` return pairs and nil pointers. */
module Wrappers {

  datatype Option<+T> = None | Some(value: T)

  datatype Result<+R, +E> = Success(value: R) | Failure(error: E)
}
